=== FILE: README.md ===
# shortbin core in Dafny

shortbin is a URL shortener written in Go. This project models the core of its
behaviour and proves properties of the model. The core covers two paths:

- **Redirect resolution** (`GET /{short_id}`).
  - The handler first reads a Redis entry and schedules a sliding TTL refresh.
  - A cache error, or an empty value, falls back to the retrieve service.
  - The service applies a byte-length guard, then a one-row SELECT.
  - On a store hit, the cache is filled with `owner;url`, and the owner is "-1" when the link has none.
  - Every redirect publishes one click event. The topic is the public one for owner "-1" and the attributed one otherwise.
  - The answer is a 301, a 404 or a 500 with the standard error body, or a panic when a cached value has no `;`.
- **Authentication lifecycle**.
  - Issuing JWTs: access tokens last five hours and refresh tokens seven days, and each carries a `type` tag.
  - Validating JWTs:
    - the first `Bearer ` in the header is removed;
    - the signature is checked;
    - `exp` is checked as jwt-go v3 does;
    - the `payload` claim is re-decoded.
  - The three request gates: access, refresh, and optional access.
  - The account service: login, register, refresh, change password and lookup, over a `users` table with a primary key and a unique email.
  - The account HTTP handlers and the status and message each error maps to.
  - Link creation:
    - validation;
    - a 62-letter random id;
    - the optional owner;
    - one INSERT;
    - the create handler.

How Go and its libraries are represented:

- Go errors are the `Errors.Err` datatype. Its `Text` is what `err.Error()` returns.
- The Redis server is a map from key to (raw JSON, optional expiry second).
- Postgres tables are a map, for `urls`, and a sequence of rows, for `users`.
- `encoding/json` on strings is modelled in full: HTML-safe escaping and every escape form the decoder accepts.
- Go's `len` on strings is the UTF-8 byte length.
- Work started in goroutines is returned as an ordered list of effects, not run.
- Inputs the code does not control are parameters:
  - the clock;
  - the random draws;
  - the fresh uuid;
  - bcrypt;
  - the HS256 signer;
  - the validator's verdict;
  - driver and server faults.

Modules (one file each): `Wrappers`, `Errors`, `Response`, `Strings`,
`JsonString`, `Cache`, `UrlRepository`, `RetrieveService`, `RetrieveHandler`,
`Jwt`, `Middleware`, `UserRepository`, `UserService`, `AuthHandlers`, `IdGen`,
`CreateService`.

## Model

| member | source | states |
|---|---|---|
| Response.Error | pkg/response/error.go:23-34 | The status is passed through and the body's "message" is the given message. "debug" is present exactly when the environment is not "production", and then holds `err.Error()`. There are no other keys. |
| Response.ProductionHidesCause | pkg/response/error.go:28-30 | In production two different errors give the same reply. |
| Response.DebugRevealsCause | pkg/response/error.go:28-30 | Outside production, errors with different texts give different replies. |
| Strings.IndexOf | pkg/jwt/jwt.go:56 | Returns the first index where the pattern occurs, with no earlier occurrence, or -1 exactly when it occurs nowhere. |
| Strings.RemoveFirst | pkg/jwt/jwt.go:56 | `strings.Replace(s, p, "", 1)`: unchanged when `p` is absent. Otherwise the first occurrence is cut out and the length drops by `len(p)`. |
| Strings.RemoveFirstOfPrefix | pkg/jwt/jwt.go:56 | A leading `p` is the occurrence removed: `RemoveFirst(p+t, p) == t`. |
| Strings.RemoveFirstAfter | pkg/jwt/jwt.go:56 | An occurrence preceded only by characters that cannot start `p` is the one removed, wherever it sits. |
| Strings.SplitFirst | internal/retrieve/http/handlers.go:72 | `strings.SplitN(s, ";", 2)`: one piece, equal to `s`, exactly when `;` is absent. Otherwise two pieces around the first `;`, and the first piece holds no `;`. |
| Strings.Utf8Len | internal/retrieve/service/retrieve.go:29 | Go's `len`: at least the number of characters and at most four bytes per character. |
| Strings.AsciiLength | internal/retrieve/service/retrieve.go:29 | On ASCII text the byte length equals the character count. |
| JsonString.Marshal | pkg/redis/redis.go:107 | `json.Marshal` of a string is a quoted literal. |
| JsonString.Unmarshal | pkg/redis/redis.go:71 | `json.Unmarshal` into a string: `null` leaves the destination alone, and a string literal decodes after whitespace is trimmed. |
| JsonString.Unescape | pkg/redis/redis.go:71 | The literal's body decodes to no more characters than it has. Text with no quote, backslash or control character decodes to itself. |
| JsonString.UnescapeEscapeAll | pkg/redis/redis.go:95-107 | Decoding the body the encoder wrote gives back the original characters, including HTML-escaped and control characters. |
| JsonString.UnmarshalMarshal | pkg/redis/redis.go:95-107 | Round trip: every string survives `json.Marshal` followed by `json.Unmarshal`. |
| JsonString.MarshalNotNull | pkg/redis/redis.go:95-107 | A marshalled string never decodes as `null`, so a stored value always overwrites the destination. |
| Cache.Fetch | pkg/redis/redis.go:66-69 | The raw value exactly when there is no fault and the key is present and unexpired; `redis.Nil` when it is absent; otherwise the fault. |
| Cache.DecodeInto | pkg/redis/redis.go:71-76 | There is no error exactly when the JSON is valid for a string. A string literal overwrites the destination; `null` or an error leaves it. |
| Cache.Get | pkg/redis/redis.go:62-77 | A fetch error is returned and leaves the destination alone. Otherwise the stored JSON is decoded into it. |
| Cache.GetByRefreshingExpiry | pkg/redis/redis.go:79-101 | Reads exactly as `Get` does. It schedules one EXPIRE to the TTL exactly when the fetch succeeded, even if decoding then fails. |
| Cache.ExpiryAfter | pkg/redis/redis.go:108 | A positive duration sets a deadline that far ahead. A non-positive one writes a key without expiry. |
| Cache.Set | pkg/redis/redis.go:103-114 | Without a fault, the key holds the JSON of the value with its expiry and no other key changes. With a fault, nothing changes and the fault is returned. |
| Cache.SetExpiry | pkg/redis/redis.go:116-126 | An absent key stays absent. A positive duration moves the deadline of a present key, and a non-positive one deletes it. Only the command's error is returned. |
| Cache.SetThenGet | pkg/redis/redis.go:62-114 | A string written by `Set` reads back unchanged through `Get` while it lives. |
| Cache.RefreshSlides | pkg/redis/redis.go:88-93 | After a refresh at `ta`, the key reads the same value for the full TTL from `ta`, whatever its old deadline was. |
| UrlRepository.GetUrlByID | internal/retrieve/repository/retrieve.go:25-39 | Success with the stored row exactly when there is no fault and the id is present. pgx's no-rows error, whether it comes from a fault or a missing row, becomes "id not found". Other errors pass unchanged. |
| UrlRepository.Insert | internal/create/repository/create.go:23-29 | The row is added exactly when there is no fault and the id is free. A taken id fails with SQLSTATE 23505 and the table unchanged. Keying by short id is preserved. |
| UrlRepository.InsertThenGet | internal/create/repository/create.go:23-29 | An inserted row is what a later lookup of its id returns. |
| RetrieveService.GetLongUrlByShortId | internal/retrieve/service/retrieve.go:27-40 | A byte length different from the configured one fails with "length not in range". Otherwise the repository's error passes unchanged. Success holds exactly when the guard passes, there is no fault and the id is stored, and then gives the stored long URL. |
| RetrieveService.Retrieve | internal/retrieve/http/handlers.go:57 | The call the handler makes: it fails exactly when `GetLongUrlByShortId` fails, with the same error. On success it returns the stored URL and owner. |
| RetrieveService.RetrieveCorrected | internal/retrieve/service/retrieve.go:29-31 | The guard reports "id length not in range", the text the handler tests for. Otherwise it is identical to `Retrieve`. |
| RetrieveService.GuardPrecedesLookup | internal/retrieve/service/retrieve.go:29-33 | A wrong-length id gets the same answer whatever the table and the database do. |
| RetrieveService.GuardIsExact | internal/retrieve/service/retrieve.go:29 | One byte too many fails: the guard is equality, not a range. |
| RetrieveService.MultibyteIdPassesByteGuard | internal/retrieve/service/retrieve.go:29 | A two-character id of three-byte characters passes a length of 6. |
| RetrieveHandler.EncodeValue | internal/retrieve/http/handlers.go:106 | The cache value contains `;` and is one longer than owner and URL together. |
| RetrieveHandler.DecodeValue | internal/retrieve/http/handlers.go:72-73 | None, meaning `split[1]` would panic, exactly when the value has no `;`. Otherwise the owner holds no `;` and `owner;url` rebuilds the value. |
| RetrieveHandler.OwnerOf | internal/retrieve/http/handlers.go:67-69 | "-1" for a link without owner, and the stored user id otherwise. |
| RetrieveHandler.Topic | internal/retrieve/http/handlers.go:92-96 | Owner "-1" publishes to the public clicks topic. Any other owner publishes to the clicks topic. |
| RetrieveHandler.EventValue | internal/retrieve/http/handlers.go:80-89 | The event has exactly the eight keys, and carries the short id, owner and URL. |
| RetrieveHandler.Classify | internal/retrieve/http/handlers.go:58-64 | 404 "id not found" exactly when the error text is "id not found" or "id length not in range". Every other error is 500 "something went wrong". |
| RetrieveHandler.MissFrom | internal/retrieve/http/handlers.go:54-76 | A service error gives the classified answer and no effects. A success redirects to the found URL, and its first effect caches `owner;url` for the TTL. When the owner has no `;`, a later hit on that cached value answers the same redirect with the same remaining event. |
| RetrieveHandler.Miss | internal/retrieve/http/handlers.go:54-76 | Against the table: a wrong-length id is 500, and an unknown id is 404, both without effects. A stored id redirects to its long URL, and any redirect is to a stored URL. |
| RetrieveHandler.Hit | internal/retrieve/http/handlers.go:71-76 | A value without `;` panics. Otherwise the redirect goes to the text after the first `;`, and the single event is attributed to the text before it. |
| RetrieveHandler.ResolveFrom | internal/retrieve/http/handlers.go:43-77 | A cache error, or a key the server does not hold, takes the miss path with no refresh. A held key schedules its TTL refresh first. Then an empty cached value takes the miss path and any other value the hit path. |
| RetrieveHandler.Resolve | internal/retrieve/http/handlers.go:43-77 | A cache error or an absent key answers as the store path does. A non-empty cached value answers as the hit path does, after the TTL refresh and whatever the table holds. |
| RetrieveHandler.ResolveCorrected | internal/retrieve/http/handlers.go:57-64 | A wrong-length id that misses the cache is 404 "id not found" with no effects. For every id of the right length it answers exactly as `Resolve`. |
| RetrieveHandler.DecodeEncode | internal/retrieve/http/handlers.go:72-106 | Codec round trip: when the owner has no `;`, the split returns the same owner and URL, even when the URL contains `;`. |
| RetrieveHandler.OwnerWithSeparatorBreaksRoundTrip | internal/retrieve/http/handlers.go:72-106 | Owner `a;b` with URL `u` is read back as owner `a` and URL `b;u`. |
| RetrieveHandler.HitWithoutSeparatorPanics | internal/retrieve/http/handlers.go:72-73 | A non-empty cached value without `;` makes the hit path panic. |
| RetrieveHandler.CacheErrorActsAsMiss | internal/retrieve/http/handlers.go:47-54 | A cache error gives the same step as an empty cache: the store path runs and nothing is refreshed. |
| RetrieveHandler.MissFailure | internal/retrieve/http/handlers.go:54-66 | On a miss, a service error gives no effects. It answers 404 exactly for the two not-found texts and 500 otherwise. |
| RetrieveHandler.MissSuccess | internal/retrieve/http/handlers.go:54-106 | On a successful miss the step is: redirect to the stored URL, cache `owner;url` under the id for the configured minutes, then one event to the owner's topic. |
| RetrieveHandler.HitPath | internal/retrieve/http/handlers.go:47-76 | On a hit the step is a redirect to the cached URL, with the TTL refresh and one event as the only effects. It is the same for every table and database state. |
| RetrieveHandler.WrongLengthIs500 | internal/retrieve/http/handlers.go:59-63 | As written, a wrong-length id on a miss never reaches the table and is answered 500. |
| RetrieveHandler.CorrectedWrongLengthIs404 | internal/retrieve/http/handlers.go:59-60 | With the corrected guard text, the same id is answered 404 "id not found", with no effects. |
| RetrieveHandler.UnknownIdIs404 | internal/retrieve/repository/retrieve.go:32-34 | A missing row reaches the handler as "id not found" and is answered 404 with no effects. |
| RetrieveHandler.MissThenHit | internal/retrieve/http/handlers.go:43-110 | Cache-aside end to end: after a miss's cache write lands, a request within the TTL redirects to the same URL. It emits the same event to the same topic and does not depend on the table. |
| RetrieveHandler.SameTopicOnBothPaths | internal/retrieve/http/handlers.go:67-96 | A link's owner survives the cache, so its events go to the same topic on the miss and hit paths. |
| RetrieveHandler.RefreshMatchesWrite | internal/retrieve/http/handlers.go:43-106 | For an id the cache holds, the first effect of a request is an EXPIRE of that id. Its TTL is the one the miss path's SET uses for the same id and configuration, whatever the store returns. |
| RetrieveHandler.OneEventPerRedirect | internal/retrieve/http/handlers.go:70-76 | Every redirect ends with exactly one event for its id and URL, on the owner's topic. Everything before it is cache work. |
| Jwt.TokenClaims | pkg/jwt/jwt.go:22-26 | The signed claims are the payload with `type` set to the tag, and `exp` lies exactly the lifetime ahead. |
| Jwt.Issue | pkg/jwt/jwt.go:20-35 | The caller's map gains the tag. The token is the signature of those claims, or "" when signing fails. |
| Jwt.GenerateAccessToken | pkg/jwt/jwt.go:20-35 | Tag "x-access", with expiry 18000 seconds after issue. |
| Jwt.GenerateRefreshToken | pkg/jwt/jwt.go:37-52 | Tag "x-refresh", with expiry 604800 seconds after issue. |
| Jwt.ExpOk | pkg/jwt/jwt.go:58-64 | The `exp` check inside `jwt.ParseWithClaims`: an absent claim passes, a non-number fails, and a non-zero number passes exactly up to and including its second. |
| Jwt.ExpiryIsFinal | pkg/jwt/jwt.go:58-64 | A claim rejected at some second stays rejected at every later second. |
| Jwt.ValidateToken | pkg/jwt/jwt.go:54-82 | Success only when the text left after removing the first "Bearer " verifies and its `exp` passes. A returned payload is the signed payload object. A parse or signature error is returned unchanged. A verified token whose `exp` fails gives `Expired`. Otherwise, a payload object is returned as `Some` and a missing payload as `None`. |
| Jwt.IssuedTokenValidates | pkg/jwt/jwt.go:20-82 | A freshly issued token validates, with or without the prefix, to the tagged payload up to its expiry second. From the next second it fails with "Token is expired". |
| Jwt.AccessTokenLifetime | pkg/jwt/jwt.go:14-35 | An access token validates exactly until five hours after issue, to the payload tagged "x-access". |
| Jwt.RefreshTokenLifetime | pkg/jwt/jwt.go:15-52 | A refresh token validates exactly until seven days after issue, to the payload tagged "x-refresh". |
| Jwt.SharedPayloadMap | pkg/jwt/jwt.go:22-39 | Issuing both tokens from one map leaves it tagged "x-refresh", while the access token was signed over "x-access". |
| Jwt.BearerRemovedAnywhere | pkg/jwt/jwt.go:56 | "Bearer " is removed where it first occurs, even after other text, and that text stays in the token. |
| Middleware.Field | pkg/middleware/auth.go:39-44 | Reading a key of the payload map: nil when absent. |
| Middleware.GetString | internal/auth/http/handlers.go:103 | `c.GetString`: non-empty only when the key holds that string, and the string whenever it holds one. |
| Middleware.JWT | pkg/middleware/auth.go:29-47 | An empty header is rejected. A request passes exactly when the token validates to a payload whose `type` is the gate's tag. On a pass, only "userId" is set, to the payload's id. |
| Middleware.JWTAuth | pkg/middleware/auth.go:21-23 | Passes exactly the headers whose token validates to a payload tagged "x-access", and then sets only "userId" to the payload's id. |
| Middleware.JWTRefresh | pkg/middleware/auth.go:25-27 | Passes exactly the headers whose token validates to a payload tagged "x-refresh", and then sets only "userId" to the payload's id. |
| Middleware.OptionalJWTAuth | pkg/middleware/auth.go:11-19 | No header passes with no identity. Any header is judged exactly as by the access gate. |
| Middleware.ScopesAreDisjoint | pkg/middleware/auth.go:21-27 | No header passes both the access gate and the refresh gate. |
| Middleware.GatesSeparateTags | pkg/middleware/auth.go:39 | Gates for two different tags never both pass one header. |
| Middleware.AccessTokenAtGates | pkg/middleware/auth.go:21-47 | A fresh access token passes the access gate exactly until it expires, setting only the user's id. It never passes the refresh gate. |
| Middleware.RefreshTokenAtGates | pkg/middleware/auth.go:21-47 | A fresh refresh token passes the refresh gate exactly until it expires and never passes the access gate. |
| UserRepository.Find | internal/auth/repository/user.go:40-44 | The index of the first row whose column matches, or -1 when none does. |
| UserRepository.Select | internal/auth/repository/user.go:38-62 | A fault is returned. Otherwise it gives a matching row of the table, or the no-rows error when none matches. |
| UserRepository.GetUserByID | internal/auth/repository/user.go:38-49 | Without a fault it succeeds exactly when some row has the id, and returns such a row. |
| UserRepository.GetUserByEmail | internal/auth/repository/user.go:51-62 | Without a fault it succeeds exactly when some row has the email, and returns such a row. |
| UserRepository.Create | internal/auth/repository/user.go:24-29 | The row is appended exactly when there is no fault and neither its id nor its email is taken. A taken one fails with SQLSTATE 23505. |
| UserRepository.Update | internal/auth/repository/user.go:31-36 | Only email and password of the row with the id are written. Id and creation time stay, and other rows stay. An id no row has changes nothing and is no error. Without a fault it fails exactly when the row exists and another row already has the new email, and the failure is SQLSTATE 23505 with the table unchanged. |
| UserRepository.CreateKeepsUnique | internal/auth/repository/user.go:24-29 | An INSERT keeps ids and emails unique. |
| UserRepository.UpdateKeepsUnique | internal/auth/repository/user.go:31-36 | An UPDATE keeps ids and emails unique. |
| UserRepository.CreateThenGet | internal/auth/repository/user.go:24-62 | An inserted user is found again by id and by email. |
| UserService.TokenData | internal/auth/service/user.go:55-58 | The token map has exactly "id" and "email", set to the user's. |
| UserService.IssuePair | internal/auth/service/user.go:55-60 | Both tokens are generated from the same user data, access token first. |
| UserService.Login | internal/auth/service/user.go:40-62 | A validation error, lookup error or "wrong password" gives no user and no tokens. Success needs the user whose email was given and whose hash matches the password, and returns their tokens. Conversely, a valid request whose email finds a user with a matching hash succeeds for that user. |
| UserService.Register | internal/auth/service/user.go:64-80 | Stores a row with the fresh id, the clock's time, the email and the hash of the password. An error leaves the table unchanged and returns no user. A database fault is returned, and a taken id or email gives 23505. A valid request whose id and email are both free succeeds. |
| UserService.GetUser | internal/auth/service/user.go:82-90 | Returns the repository's answer, error included, unchanged. |
| UserService.RefreshToken | internal/auth/service/user.go:92-106 | Issues a new access token and a new refresh token for the user found by id. A lookup error gives two empty tokens and the error. |
| UserService.RefreshedTokenIsAccessScoped | internal/auth/service/user.go:92-106 | Within five hours, a refreshed access token validates to the id and email of the row with that id, tagged "x-access", and passes the access gate with the same id. |
| UserService.ChangePassword | internal/auth/service/user.go:108-130 | Validation, then lookup, then password check, each failing with its own error and no change. With a matching current password, the fetched row is written back with only the password replaced by the new hash, and the UPDATE's own error is returned. It succeeds exactly when all four steps do. |
| UserService.LoginValidatesFirst | internal/auth/service/user.go:41-43 | A request the validator rejects gets the same answer for every table and fault. |
| UserService.LoginTokenIsAccessScoped | internal/auth/service/user.go:55-61 | Within five hours, a login's access token validates to the user's id and email tagged "x-access". It passes the access gate with the user's id and fails the refresh gate. |
| UserService.RegisterThenLogin | internal/auth/service/user.go:40-80 | Registering with a free id and email, then logging in with the same password, succeeds for the new user. |
| UserService.ChangePasswordEffect | internal/auth/service/user.go:118-123 | A successful change replaces only that user's hash and leaves every other row as it was. |
| UserService.SamePasswordAccepted | internal/auth/service/user.go:108-130 | The current password is accepted as the new one: nothing requires them to differ. |
| AuthHandlers.Fail | pkg/response/error.go:23-34 | The error reply carries the status and the message. |
| AuthHandlers.Login | internal/auth/http/handlers.go:37-57 | A bind failure is 400 "invalid parameters" and every service error is 400 "wrong credentials". 200 holds exactly when both succeed, and then carries the user and both tokens. |
| AuthHandlers.Register | internal/auth/http/handlers.go:67-92 | A service error is 409 "user already exists" exactly when it is a Postgres 23505, and 500 otherwise. Success is 200 with only the new user's email and creation time, not its id. |
| AuthHandlers.GetMe | internal/auth/http/handlers.go:102-119 | No user id is 401 "unauthorized", a service error is 500, and success is 200 with the user. |
| AuthHandlers.RefreshToken | internal/auth/http/handlers.go:129-146 | No user id is 401 and a service error is 401. 200 carries only the access token. |
| AuthHandlers.ChangePassword | internal/auth/http/handlers.go:156-174 | Every service error is 500. Success is 200 "password changed successfully". |
| AuthHandlers.ForgotPassword | internal/auth/http/handlers.go:183-209 | No-rows is 404 "user not found" and any other error is 500. Success returns the message and the token. |
| AuthHandlers.ForgotUnknownEmailIs404 | internal/auth/http/handlers.go:193-197 | An email no user has makes the user lookup fail with no rows. Passed on by the service, that error is answered 404 "user not found". |
| AuthHandlers.ResetPassword | internal/auth/http/handlers.go:218-244 | 401 with a null body exactly when the token fails, has no payload, or carries another tag. For an accepted token: a non-string `id` panics, and only then. Otherwise a service error is 500 "something went wrong" and success is 200 with "password reset successful". |
| AuthHandlers.BindFailureSkipsService | internal/auth/http/handlers.go:39-43 | A body that fails to bind gets the same reply whatever the service would answer. |
| AuthHandlers.LoginHidesCause | internal/auth/http/handlers.go:45-50 | In production an unknown email and a wrong password get the same reply, 400 "wrong credentials". |
| AuthHandlers.DuplicateRegistrationConflicts | internal/auth/http/handlers.go:76-81 | Registering a taken email is answered 409 "user already exists". |
| AuthHandlers.EmptyIdentitySkipsService | internal/auth/http/handlers.go:102-146 | Without a user id, `/me` and `/refresh` answer 401 whatever the service would answer. |
| AuthHandlers.WrongCurrentPasswordIs500 | internal/auth/http/handlers.go:165-169 | A wrong current password is answered 500 "something went wrong", not 4xx. |
| AuthHandlers.RejectedResetTokenSkipsService | internal/auth/http/handlers.go:226-231 | A rejected reset token gets 401 whatever the reset service would answer. |
| AuthHandlers.LoginTokensCannotReset | internal/auth/http/handlers.go:226-231 | An access token is refused at the reset endpoint when the reset tag differs from the login tags. |
| AuthHandlers.Admit | internal/auth/http/routes.go:18-28 | Open routes pass with no identity, `/me` and `/change-password` use the access gate, and `/refresh` uses the refresh gate. |
| AuthHandlers.RefreshRouteSeparated | internal/auth/http/routes.go:26-28 | No header is admitted both to `/refresh` and to an access-gated route. |
| IdGen.AlphabetIsAlnum | pkg/utils/idgen.go:11 | The alphabet has 62 letters, all ASCII letters or digits, and each one's rank is its position. |
| IdGen.AlnumInAlphabet | pkg/utils/idgen.go:11 | Every ASCII letter and digit is in the alphabet. |
| IdGen.Id | pkg/utils/idgen.go:14-16 | One letter per draw. |
| IdGen.IdGenerator | pkg/utils/idgen.go:8-19 | A negative length panics. Otherwise it returns exactly `length` alphanumeric characters, `chars[draws[i]]` at position `i`, which equals `Id` of the draws used. |
| IdGen.IdCharacters | pkg/utils/idgen.go:15 | Position `i` of an id is the alphabet letter at draw `i`. |
| IdGen.IdInjective | pkg/utils/idgen.go:14-16 | Different draw sequences give different ids. |
| IdGen.IdByteLength | pkg/utils/idgen.go:11-18 | An id is ASCII, so its byte length equals the number of draws. |
| CreateService.Record | internal/create/service/create.go:38-46 | The record has the generated id, the request's URL and the creation time. The owner is absent exactly when the caller id is "". The request's expiry is used when given. |
| CreateService.Create | internal/create/service/create.go:33-55 | A validation error returns at once with the table unchanged. A negative length panics. The inserted record is the one returned, and an INSERT error is returned. |
| CreateService.ValidationPrecedesInsert | internal/create/service/create.go:34-36 | A rejected request gets the same answer whatever the table, the draws and the database. |
| CreateService.CreatedIdShape | internal/create/service/create.go:42 | A created id has exactly the configured length, in characters and in bytes, and is alphanumeric. |
| CreateService.CreatedLinkResolves | internal/retrieve/service/retrieve.go:27-40 | With the same configured length, a created link is resolved to its URL and owner by the retrieve service. |
| CreateService.HandleWithKey | internal/create/http/handlers.go:25-44 | A bind failure is 400 with the table unchanged. A service error is 500 "something went wrong", carrying that error, over the table the service left. A panic in the service is a panic. Success is 200 with the record the service created. |
| CreateService.Handle | internal/create/http/handlers.go:25-44 | As written: a bind failure is 400 with the table unchanged. A created link carries the requested URL and is stored under its id. It is owned exactly when the "userID" context key holds a non-empty string, and then by that string. A service error is 500 "something went wrong". |
| CreateService.HandleCorrected | internal/create/http/handlers.go:25-44 | The same handler reading "userId", the key the gate sets: a created link is owned exactly when that key holds a non-empty string, and then by that string. A service error is 500 "something went wrong". |
| CreateService.GatedLinksAreAnonymous | internal/create/http/handlers.go:33 | As written, behind the optional gate every created link has no owner, even for a caller with a valid token. |
| CreateService.CorrectedGateAssignsOwner | pkg/middleware/auth.go:44 | Reading "userId", the key the gate sets, a caller with a token for a user owns the link. A request without a header does not. |

## Left out

- Concurrency:
  - Goroutines are returned as an ordered list of effects.
  - The second at which a background write reaches Redis is a lemma parameter.
  - Interleavings with other requests are not modelled.
- Timeouts: the three-second Redis context and the database timeouts are driver faults passed in as inputs.
- I/O and clients:
  - gin routing and binding, and `c.ClientIP`;
  - the Kafka writer and `encodeMessage` in pkg/kafka/kafka.go;
  - client construction and ping;
  - the pgx pool;
  - config loading;
  - logging and APM;
  - server wiring in cmd/api and internal/server.
  Settings are parameters. A binding failure is an input `Result`.
- Foreign code that is an input:
  - bcrypt, as `UserService.Crypto`;
  - HS256 signing and the compact serialization, as `Jwt.Signer`;
  - the uuid, the clock and `math/rand`, as draws;
  - the request validator's verdict, as `invalid`.
- `utils.Copy` is a field-by-name copy (`AuthHandlers.View`, `CreateService.Record`).
- Jwt.ValidateToken: only `exp` is checked among the time claims. jwt-go also checks `iat` and `nbf` when present, and tokens issued here never carry them.
- JsonString.Unmarshal: decodes only into a string destination. A non-string JSON value is an error, without Go's exact error text.
- Errors.Text: the text of a Postgres error follows pgconn's format. Only its SQLSTATE code is inspected.
- AuthHandlers.Register: the auth DTOs are declared twice (internal/auth/dto/auth.go and internal/auth/dto/user.go). The model follows auth.go, the file that also declares the forgot and reset request types, so the registration reply holds only email and created_at.
- AuthHandlers.ForgotPassword: `SendPasswordResetEmail` is not defined by the account service, so its result is an input.
- Strings are sequences of Unicode scalar values, so invalid UTF-8 cannot occur. Go's replacement of such bytes by U+FFFD (in `encoding/json` and when ranging over a string) is not modelled.
- AuthHandlers.ResetPassword: `jwt.ResetPasswordTokenType` and the service's `ResetPassword` are not defined. The tag is a parameter and the service's result is an input.
- CreateService.Create: `PopulateValues` is not defined for URLs. The creation and default expiry seconds are inputs, and they are assumed not to overwrite a requested expiry.
- The source does not compile as shown. The model resolves each mismatch as follows:
  - `service.Retrieve` returns an owner. The service's interface declares `GetLongUrlByShortId` without one, and `RetrieveService.Retrieve` models the same guard and lookup.
  - The service's `RefreshToken` is declared (internal/auth/service/user.go:22) and defined (:92) with one argument and three results: two tokens and an error. The handler (internal/auth/http/handlers.go:137) calls it with a second argument and takes two results. The model follows the service and gives the handler the access token.
  - The URL model struct (internal/common/model/url.go:7-8) names its fields `Short`/`Long`. Both repositories and the create service use `ShortId`/`LongUrl` (internal/retrieve/repository/retrieve.go:31, internal/create/repository/create.go:27, internal/create/service/create.go:42). The retrieve service reads `url.Long` (internal/retrieve/service/retrieve.go:38). They are one record here.
  - Other name mismatches are treated as the evident names:
    - `utils.IdGenerator` vs `IDGenerator`;
    - `ShortIdLength.Default` vs an integer;
    - the Kafka `Produce` topic argument;
    - missing configuration fields.
- Facts about the code that the model keeps, although a reader might expect otherwise:
  - The id guard is exact byte-length equality, not a range (internal/retrieve/service/retrieve.go:29).
  - The cache is read (internal/retrieve/http/handlers.go:48) before the service and its guard run (internal/retrieve/http/handlers.go:57).
  - A wrong-length id is answered 500, not 404 (internal/retrieve/service/retrieve.go:30 against internal/retrieve/http/handlers.go:59); see Findings.
  - A cached value without `;` panics at `split[1]` (internal/retrieve/http/handlers.go:72-73); it is not read as a bare URL.
  - Refresh generates a new refresh token (internal/auth/service/user.go:104), which the handler drops (internal/auth/http/handlers.go:137-144).
  - ChangePassword checks only the current password (internal/auth/service/user.go:118), so a new password equal to the old one is accepted.
  - The JWT package issues only access and refresh tokens (pkg/jwt/jwt.go:20 and pkg/jwt/jwt.go:37); nothing issues a reset token or fixes its lifetime.

## Findings

| source | as written | input that shows it | evidently intended | confidence | as-written member | corrected member |
|---|---|---|---|---|---|---|
| internal/retrieve/service/retrieve.go:30 | The guard fails with "length not in range", but the handler's 404 test (internal/retrieve/http/handlers.go:59) compares against "id length not in range". | Configured length 7 and id "abc", not cached: the answer is 500 "something went wrong". | 404 "id not found", as the handler's test and its documented 404 response show. | high; not executed | RetrieveHandler.WrongLengthIs500 | RetrieveHandler.CorrectedWrongLengthIs404 |
| internal/create/http/handlers.go:33 | The create handler reads the caller id from "userID", but the gate stores it under "userId" (pkg/middleware/auth.go:44). | POST /create with a valid access token for user "u1": the link is stored with no owner. | The authenticated caller owns the link, and its clicks go to the attributed topic. | high; not executed | CreateService.GatedLinksAreAnonymous | CreateService.CorrectedGateAssignsOwner |

=== FILE: auth_handlers.dfy ===
/** The account handlers (internal/auth/http/handlers.go) without gin: each
    maps the bound request, the gate's context variables and the service's
    result to a status and a body. The service's result is an input, so
    "the service is not called" reads: the reply does not depend on it. */
module AuthHandlers {
  import opened Wrappers
  import opened Errors
  import Response
  import UserRepository
  import UserService
  import Middleware
  import Jwt

  const StatusOK := 200
  const StatusBadRequest := 400
  const StatusUnauthorized := 401
  const StatusNotFound := 404
  const StatusConflict := 409
  const StatusInternalServerError := 500

  /** The user fields copied into responses (no password). */
  datatype UserView = UserView(id: string, email: string, createdAt: int)

  datatype Body =
    | ErrorBody(fields: map<string, string>)     // response.Error
    | NullBody                                   // c.JSON(status, nil)
    | LoginBody(user: UserView, accessToken: string, refreshToken: string)
    | UserBody(user: UserView)
    | RegisterBody(email: string, createdAt: int)  // dto.RegisterRes: email and created_at only
    | Fields(fields: map<string, string>)

  /** A reply, or a runtime panic of the handler. */
  datatype Reply = Reply(status: int, body: Body) | Panic

  datatype ResetPasswordReq = ResetPasswordReq(resetToken: string, password: string)
  datatype ForgotPasswordReq = ForgotPasswordReq(email: string)

  /** `response.Error(c, status, err, message)` as a reply. */
  function Fail(env: string, status: int, e: Err, message: string): (r: Reply)
    ensures r.Reply? && r.status == status && r.body.ErrorBody?
    ensures "message" in r.body.fields && r.body.fields["message"] == message
  {
    Reply(status, ErrorBody(Response.Error(env, status, e, message).body))
  }

  /** `utils.Copy` from a possibly nil user. */
  function View(u: Option<UserRepository.User>): UserView
  {
    match u
    case None => UserView("", "", 0)
    case Some(v) => UserView(v.id, v.email, v.createdAt)
  }

  /** `Login`: a binding failure is 400 "invalid parameters"; every service
      error, whatever its cause, is 400 "wrong credentials". */
  function Login(env: string, bind: Result<UserService.LoginReq, Err>, svc: UserService.LoginResult): (r: Reply)
    ensures bind.Failure? ==> r == Fail(env, StatusBadRequest, bind.error, Response.InvalidParameters)
    ensures bind.Success? && svc.err.Some? ==> r == Fail(env, StatusBadRequest, svc.err.value, Response.WrongCredentials)
    ensures r.Reply? && r.status == StatusOK <==> bind.Success? && svc.err.None?
    ensures r.Reply? && r.status == StatusOK ==>
              r.body == LoginBody(View(svc.user), svc.accessToken, svc.refreshToken)
  {
    if bind.Failure? then Fail(env, StatusBadRequest, bind.error, Response.InvalidParameters)
    else if svc.err.Some? then Fail(env, StatusBadRequest, svc.err.value, Response.WrongCredentials)
    else Reply(StatusOK, LoginBody(View(svc.user), svc.accessToken, svc.refreshToken))
  }

  /** `Register`: a Postgres error with SQLSTATE 23505 is 409 "user already
      exists"; any other error is 500. Success copies the new row into a
      body of its email and creation time; the id is not answered. */
  function Register(env: string, bind: Result<UserService.RegisterReq, Err>,
                    svc: Result<UserRepository.User, Err>): (r: Reply)
    ensures r.Reply?
    ensures bind.Failure? ==> r == Fail(env, StatusBadRequest, bind.error, Response.InvalidParameters)
    ensures bind.Success? && svc.Failure? ==>
              (r.status == StatusConflict <==> svc.error.PgError? && svc.error.code == UniqueViolation)
    ensures bind.Success? && svc.Failure? && r.status == StatusConflict ==>
              r == Fail(env, StatusConflict, svc.error, Response.UserAlreadyExists)
    ensures bind.Success? && svc.Failure? && r.status != StatusConflict ==>
              r == Fail(env, StatusInternalServerError, svc.error, Response.SomethingWentWrong)
    ensures bind.Success? && svc.Success? ==>
              r == Reply(StatusOK, RegisterBody(svc.value.email, svc.value.createdAt))
  {
    if bind.Failure? then Fail(env, StatusBadRequest, bind.error, Response.InvalidParameters)
    else match svc
      case Failure(e) =>
        if e.PgError? && e.code == UniqueViolation then Fail(env, StatusConflict, e, Response.UserAlreadyExists)
        else Fail(env, StatusInternalServerError, e, Response.SomethingWentWrong)
      case Success(u) => Reply(StatusOK, RegisterBody(u.email, u.createdAt))
  }

  /** `GetMe`: no user id in the context is 401 before the service; a
      service error is 500. */
  function GetMe(env: string, vars: map<string, Jwt.Json>, svc: Result<UserRepository.User, Err>): (r: Reply)
    ensures Middleware.GetString(vars, "userId") == "" ==>
              r == Fail(env, StatusUnauthorized, Message(Response.EmptyUserID), Response.Unauthorized)
    ensures Middleware.GetString(vars, "userId") != "" && svc.Failure? ==>
              r == Fail(env, StatusInternalServerError, svc.error, Response.SomethingWentWrong)
    ensures Middleware.GetString(vars, "userId") != "" && svc.Success? ==>
              r == Reply(StatusOK, UserBody(View(Some(svc.value))))
  {
    if Middleware.GetString(vars, "userId") == "" then
      Fail(env, StatusUnauthorized, Message(Response.EmptyUserID), Response.Unauthorized)
    else match svc
      case Failure(e) => Fail(env, StatusInternalServerError, e, Response.SomethingWentWrong)
      case Success(u) => Reply(StatusOK, UserBody(View(Some(u))))
  }

  /** `RefreshToken`: no user id is 401 before the service; a service error
      is 401 "unauthorized"; success answers only the access token. */
  function RefreshToken(env: string, vars: map<string, Jwt.Json>, svc: UserService.TokenPair): (r: Reply)
    ensures Middleware.GetString(vars, "userId") == "" ==>
              r == Fail(env, StatusUnauthorized, Message(Response.EmptyUserID), Response.Unauthorized)
    ensures Middleware.GetString(vars, "userId") != "" && svc.err.Some? ==>
              r == Fail(env, StatusUnauthorized, svc.err.value, Response.Unauthorized)
    ensures r.Reply? && r.status == StatusOK <==> Middleware.GetString(vars, "userId") != "" && svc.err.None?
    ensures r.Reply? && r.status == StatusOK ==> r.body == Fields(map["access_token" := svc.accessToken])
  {
    if Middleware.GetString(vars, "userId") == "" then
      Fail(env, StatusUnauthorized, Message(Response.EmptyUserID), Response.Unauthorized)
    else if svc.err.Some? then Fail(env, StatusUnauthorized, svc.err.value, Response.Unauthorized)
    else Reply(StatusOK, Fields(map["access_token" := svc.accessToken]))
  }

  /** `ChangePassword`: every service error, a wrong current password
      included, is 500 "something went wrong". */
  function ChangePassword(env: string, bind: Result<UserService.ChangePasswordReq, Err>, svc: Option<Err>): (r: Reply)
    ensures bind.Failure? ==> r == Fail(env, StatusBadRequest, bind.error, Response.InvalidParameters)
    ensures bind.Success? && svc.Some? ==> r == Fail(env, StatusInternalServerError, svc.value, Response.SomethingWentWrong)
    ensures bind.Success? && svc.None? ==>
              r == Reply(StatusOK, Fields(map["message" := "password changed successfully"]))
  {
    if bind.Failure? then Fail(env, StatusBadRequest, bind.error, Response.InvalidParameters)
    else if svc.Some? then Fail(env, StatusInternalServerError, svc.value, Response.SomethingWentWrong)
    else Reply(StatusOK, Fields(map["message" := "password changed successfully"]))
  }

  /** `ForgotPassword`: the reset-mail service's result is an input (the
      service does not declare it); pgx's no-rows error is 404 "user not
      found" and any other error 500. */
  function ForgotPassword(env: string, bind: Result<ForgotPasswordReq, Err>, svc: Result<string, Err>): (r: Reply)
    ensures bind.Failure? ==> r == Fail(env, StatusBadRequest, bind.error, Response.InvalidParameters)
    ensures bind.Success? && svc.Failure? && svc.error == NoRows ==>
              r == Fail(env, StatusNotFound, NoRows, Response.UserNotFound)
    ensures bind.Success? && svc.Failure? && svc.error != NoRows ==>
              r == Fail(env, StatusInternalServerError, svc.error, Response.SomethingWentWrong)
    ensures bind.Success? && svc.Success? ==>
              r == Reply(StatusOK, Fields(map["message" := "forgot password email sent", "access_token" := svc.value]))
  {
    if bind.Failure? then Fail(env, StatusBadRequest, bind.error, Response.InvalidParameters)
    else match svc
      case Failure(e) =>
        if e == NoRows then Fail(env, StatusNotFound, e, Response.UserNotFound)
        else Fail(env, StatusInternalServerError, e, Response.SomethingWentWrong)
      case Success(token) =>
        Reply(StatusOK, Fields(map["message" := "forgot password email sent", "access_token" := token]))
  }

  /** `ResetPassword`: the reset token is validated in the handler; an
      invalid token, a missing payload or a tag other than `resetType` is 401
      with a null body. A payload id that is not a string makes the type
      assertion panic. The reset service's result is an input. */
  function ResetPassword(env: string, bind: Result<ResetPasswordReq, Err>, keys: UserService.TokenKeys,
                         now: int, resetType: string, svc: Option<Err>): (r: Reply)
    ensures bind.Failure? ==> r == Fail(env, StatusBadRequest, bind.error, Response.InvalidParameters)
    ensures bind.Success? ==>
              var v := Jwt.ValidateToken(keys.lib, keys.secret, bind.value.resetToken, now);
              ((r == Reply(StatusUnauthorized, NullBody)) <==>
               !(v.Success? && v.value.Some? && Middleware.Field(v.value.value, "type") == Jwt.JStr(resetType)))
    ensures r.Reply? && r.status == StatusOK ==> svc.None?
    ensures bind.Success? ==>
              var v := Jwt.ValidateToken(keys.lib, keys.secret, bind.value.resetToken, now);
              v.Success? && v.value.Some? && Middleware.Field(v.value.value, "type") == Jwt.JStr(resetType) ==>
                && (r.Panic? <==> !Middleware.Field(v.value.value, "id").JStr?)
                && (Middleware.Field(v.value.value, "id").JStr? && svc.Some? ==>
                      r == Fail(env, StatusInternalServerError, svc.value, Response.SomethingWentWrong))
                && (Middleware.Field(v.value.value, "id").JStr? && svc.None? ==>
                      r == Reply(StatusOK, Fields(map["message" := "password reset successful"])))
  {
    if bind.Failure? then Fail(env, StatusBadRequest, bind.error, Response.InvalidParameters)
    else match Jwt.ValidateToken(keys.lib, keys.secret, bind.value.resetToken, now)
      case Failure(_) => Reply(StatusUnauthorized, NullBody)
      case Success(None) => Reply(StatusUnauthorized, NullBody)
      case Success(Some(p)) =>
        if Middleware.Field(p, "type") != Jwt.JStr(resetType) then Reply(StatusUnauthorized, NullBody)
        else if !Middleware.Field(p, "id").JStr? then Panic
        else if svc.Some? then Fail(env, StatusInternalServerError, svc.value, Response.SomethingWentWrong)
        else Reply(StatusOK, Fields(map["message" := "password reset successful"]))
  }

  /** An email no user has is answered 404 "user not found": the lookup's
      no-rows error, passed on by the reset-mail service, is what the
      handler maps to 404. */
  lemma ForgotUnknownEmailIs404(env: string, table: UserRepository.UserTable, email: string)
    requires forall u :: u in table ==> u.email != email
    ensures var lookup := UserRepository.GetUserByEmail(table, email, None);
            var r := ForgotPassword(env, Success(ForgotPasswordReq(email)), Failure(lookup.error));
            lookup.Failure? && r == Fail(env, StatusNotFound, NoRows, Response.UserNotFound)
  {
  }

  /** A body that fails to bind never reaches the service. */
  lemma BindFailureSkipsService(env: string, e: Err,
                                l1: UserService.LoginResult, l2: UserService.LoginResult,
                                g1: Result<UserRepository.User, Err>, g2: Result<UserRepository.User, Err>,
                                c1: Option<Err>, c2: Option<Err>, f1: Result<string, Err>, f2: Result<string, Err>,
                                keys: UserService.TokenKeys, now: int, resetType: string)
    ensures Login(env, Failure(e), l1) == Login(env, Failure(e), l2)
    ensures Register(env, Failure(e), g1) == Register(env, Failure(e), g2)
    ensures ChangePassword(env, Failure(e), c1) == ChangePassword(env, Failure(e), c2)
    ensures ForgotPassword(env, Failure(e), f1) == ForgotPassword(env, Failure(e), f2)
    ensures ResetPassword(env, Failure(e), keys, now, resetType, c1) == ResetPassword(env, Failure(e), keys, now, resetType, c2)
  {
  }

  /** In production an unknown email and a wrong password get the same reply. */
  lemma {:induction false} LoginHidesCause(table: UserRepository.UserTable, req: UserService.LoginReq,
                                           crypto: UserService.Crypto, keys: UserService.TokenKeys, now: int)
    requires forall u :: u in table ==> u.email != req.email
    ensures var unknown := UserService.Login(table, req, None, None, crypto, keys, now);
            var wrong := UserService.LoginResult(None, "", "", Some(Message(UserService.WrongPassword)));
            && Login(Response.ProductionEnv, Success(req), unknown) == Login(Response.ProductionEnv, Success(req), wrong)
            && Login(Response.ProductionEnv, Success(req), unknown)
               == Fail(Response.ProductionEnv, StatusBadRequest, NoRows, Response.WrongCredentials)
  {
    Response.ProductionHidesCause(StatusBadRequest, NoRows, Message(UserService.WrongPassword), Response.WrongCredentials);
  }

  /** Registering an email that is already taken answers 409. */
  lemma {:induction false} DuplicateRegistrationConflicts(env: string, table: UserRepository.UserTable,
                                                          req: UserService.RegisterReq, crypto: UserService.Crypto,
                                                          newId: string, now: int)
    requires exists u :: u in table && u.email == req.email
    ensures var svc := UserService.Register(table, req, None, None, crypto, newId, now).1;
            Register(env, Success(req), svc) == Fail(env, StatusConflict, svc.error, Response.UserAlreadyExists)
  {
  }

  /** A missing identity is refused before the service is consulted. */
  lemma EmptyIdentitySkipsService(env: string, vars: map<string, Jwt.Json>,
                                  g1: Result<UserRepository.User, Err>, g2: Result<UserRepository.User, Err>,
                                  t1: UserService.TokenPair, t2: UserService.TokenPair)
    requires Middleware.GetString(vars, "userId") == ""
    ensures GetMe(env, vars, g1) == GetMe(env, vars, g2)
    ensures RefreshToken(env, vars, t1) == RefreshToken(env, vars, t2)
    ensures GetMe(env, vars, g1).Reply? && GetMe(env, vars, g1).status == StatusUnauthorized
  {
  }

  /** A wrong current password, like any other service error, is a 500. */
  lemma {:induction false} WrongCurrentPasswordIs500(env: string, table: UserRepository.UserTable, id: string,
                                                     req: UserService.ChangePasswordReq, crypto: UserService.Crypto)
    requires UserRepository.GetUserByID(table, id, None).Success?
    requires !crypto.matches(UserRepository.GetUserByID(table, id, None).value.password, req.password)
    ensures var svc := UserService.ChangePassword(table, id, req, None, None, None, crypto).1;
            ChangePassword(env, Success(req), svc)
              == Fail(env, StatusInternalServerError, Message(UserService.WrongPassword), Response.SomethingWentWrong)
  {
  }

  /** A rejected reset token never reaches the service. */
  lemma {:induction false} RejectedResetTokenSkipsService(env: string, req: ResetPasswordReq,
                                                          keys: UserService.TokenKeys, now: int,
                                                          resetType: string, s1: Option<Err>, s2: Option<Err>)
    requires ResetPassword(env, Success(req), keys, now, resetType, s1) == Reply(StatusUnauthorized, NullBody)
    ensures ResetPassword(env, Success(req), keys, now, resetType, s2) == Reply(StatusUnauthorized, NullBody)
  {
  }

  /** An access or refresh token is not a reset token, whatever the reset tag
      is, as long as it differs from both. */
  lemma {:induction false} LoginTokensCannotReset(env: string, payload: Jwt.Payload, password: string,
                                                  keys: UserService.TokenKeys, issued: nat, now: int,
                                                  resetType: string, svc: Option<Err>)
    requires resetType != Jwt.AccessTokenType && resetType != Jwt.RefreshTokenType
    requires Jwt.SoundFor(keys.lib, keys.secret,
                          Jwt.TokenClaims(payload, Jwt.AccessTokenType, Jwt.AccessTokenExpiredTime, issued))
    requires Jwt.GenerateAccessToken(keys.lib, keys.secret, payload, issued).token != ""
    ensures var tok := Jwt.GenerateAccessToken(keys.lib, keys.secret, payload, issued).token;
            ResetPassword(env, Success(ResetPasswordReq(tok, password)), keys, now, resetType, svc)
              == Reply(StatusUnauthorized, NullBody)
  {
    Jwt.AccessTokenLifetime(keys.lib, keys.secret, payload, issued, now);
  }

  /** Which gate guards each route of the account group. */
  datatype Guard = Open | AccessGate | RefreshGate

  datatype Route = Route(verb: string, path: string, guard: Guard)

  const Routes: seq<Route> := [
    Route("POST", "/register", Open),
    Route("POST", "/login", Open),
    Route("POST", "/forgot-password", Open),
    Route("POST", "/reset-password", Open),
    Route("POST", "/refresh", RefreshGate),
    Route("GET", "/me", AccessGate),
    Route("POST", "/change-password", AccessGate)
  ]

  /** The gate's verdict for a route's guard. */
  function Admit(guard: Guard, keys: UserService.TokenKeys, now: int, header: string): (g: Middleware.Gate)
    ensures guard == Open ==> g == Middleware.Passed(map[])
    ensures guard == AccessGate ==> g == Middleware.JWTAuth(keys.lib, keys.secret, now, header)
    ensures guard == RefreshGate ==> g == Middleware.JWTRefresh(keys.lib, keys.secret, now, header)
  {
    match guard
    case Open => Middleware.Passed(map[])
    case AccessGate => Middleware.JWTAuth(keys.lib, keys.secret, now, header)
    case RefreshGate => Middleware.JWTRefresh(keys.lib, keys.secret, now, header)
  }

  /** No header is admitted both to /refresh and to /me or /change-password. */
  lemma {:induction false} RefreshRouteSeparated(keys: UserService.TokenKeys, now: int, header: string, i: nat, j: nat)
    requires i < |Routes| && j < |Routes|
    requires Routes[i].guard == RefreshGate && Routes[j].guard == AccessGate
    ensures !(Admit(Routes[i].guard, keys, now, header).Passed? && Admit(Routes[j].guard, keys, now, header).Passed?)
  {
    Middleware.ScopesAreDisjoint(keys.lib, keys.secret, now, header);
  }
}

=== FILE: cache.dfy ===
/** The `IRedis` contract (pkg/redis/redis.go) over an abstract key/value
    store with per-key expiry. Time is in whole seconds; a fault is the error
    the server connection reports instead of answering (timeouts included). */
module Cache {
  import opened Wrappers
  import opened Errors
  import JsonString

  /** A stored value: the raw bytes written by SET and, unless the key is
      persistent, the second at which the server evicts it. */
  datatype Entry = Entry(raw: string, expiresAt: Option<int>)

  type Store = map<string, Entry>

  predicate Live(e: Entry, now: int)
  {
    e.expiresAt.None? || now < e.expiresAt.value
  }

  /** The server holds `key` at time `now` (an expired key counts as absent). */
  predicate Present(store: Store, key: string, now: int)
  {
    key in store && Live(store[key], now)
  }

  /** A write the client sends, possibly from a background goroutine. */
  datatype Command =
    | SetCmd(key: string, value: string, seconds: int)
    | SetExpiryCmd(key: string, seconds: int)

  /** The destination variable after a read, and the error returned. */
  datatype Read = Read(dest: string, err: Option<Err>)

  /** A read together with the writes it scheduled in the background. */
  datatype Lookup = Lookup(read: Read, scheduled: seq<Command>)

  /** `r.cmd.Get(ctx, key).Result()`: the raw value, `redis.Nil` when the
      key is absent, or the connection fault. */
  function Fetch(store: Store, key: string, now: int, fault: Option<Err>): (r: Result<string, Err>)
    ensures r.Success? <==> fault.None? && Present(store, key, now)
    ensures r.Success? ==> r.value == store[key].raw
    ensures fault.Some? ==> r == Failure(fault.value)
    ensures fault.None? && !Present(store, key, now) ==> r == Failure(CacheNil)
  {
    if fault.Some? then Failure(fault.value)
    else if Present(store, key, now) then Success(store[key].raw)
    else Failure(CacheNil)
  }

  /** `json.Unmarshal([]byte(raw), value)` with a string destination. */
  function DecodeInto(raw: string, dest: string): (r: Read)
    ensures r.err.None? <==> !JsonString.Unmarshal(raw).Invalid?
    ensures JsonString.Unmarshal(raw).Text? ==> r.dest == JsonString.Unmarshal(raw).s
    ensures !JsonString.Unmarshal(raw).Text? ==> r.dest == dest
  {
    match JsonString.Unmarshal(raw)
    case Text(s) => Read(s, None)
    case Null => Read(dest, None)
    case Invalid => Read(dest, Some(Message("invalid character in JSON value")))
  }

  /** `Get(key, &dest)`: a fetch error is returned as is and leaves `dest`
      alone; otherwise the stored JSON is decoded into `dest`. */
  function Get(store: Store, key: string, now: int, fault: Option<Err>, dest: string): (r: Read)
    ensures Fetch(store, key, now, fault).Failure? ==>
              r == Read(dest, Some(Fetch(store, key, now, fault).error))
    ensures Fetch(store, key, now, fault).Success? ==>
              r == DecodeInto(store[key].raw, dest)
  {
    match Fetch(store, key, now, fault)
    case Failure(e) => Read(dest, Some(e))
    case Success(raw) => DecodeInto(raw, dest)
  }

  /** `GetByRefreshingExpiry(key, &dest)`: the same read as `Get`; on a
      successful fetch a TTL refresh to `ttlSeconds` is scheduled before the
      value is decoded, so it is scheduled even when decoding fails. */
  function GetByRefreshingExpiry(store: Store, key: string, now: int, fault: Option<Err>,
                                 dest: string, ttlSeconds: int): (r: Lookup)
    ensures r.read == Get(store, key, now, fault, dest)
    ensures Fetch(store, key, now, fault).Failure? ==> r.scheduled == []
    ensures Fetch(store, key, now, fault).Success? ==> r.scheduled == [SetExpiryCmd(key, ttlSeconds)]
  {
    match Fetch(store, key, now, fault)
    case Failure(e) => Lookup(Read(dest, Some(e)), [])
    case Success(raw) => Lookup(DecodeInto(raw, dest), [SetExpiryCmd(key, ttlSeconds)])
  }

  /** Expiry of a key written at `now` for `seconds`; a non-positive
      duration writes a key without expiry (go-redis sends no EX option). */
  function ExpiryAfter(now: int, seconds: int): (e: Option<int>)
    ensures e.Some? <==> seconds > 0
    ensures e.Some? ==> e.value - now == seconds
  {
    if seconds > 0 then Some(now + seconds) else None
  }

  /** `Set(key, value, seconds)`: stores the JSON encoding of the string
      `value`; the marshal error is discarded (a string always encodes). */
  function Set(store: Store, key: string, value: string, seconds: int, now: int,
               fault: Option<Err>): (r: (Store, Option<Err>))
    ensures fault.Some? ==> r == (store, fault)
    ensures fault.None? ==> r.1.None? && key in r.0
    ensures fault.None? ==> r.0[key] == Entry(JsonString.Marshal(value), ExpiryAfter(now, seconds))
    ensures fault.None? ==> forall k :: k in store && k != key ==> k in r.0 && r.0[k] == store[k]
    ensures fault.None? ==> r.0.Keys == store.Keys + {key}
  {
    if fault.Some? then (store, fault)
    else (store[key := Entry(JsonString.Marshal(value), ExpiryAfter(now, seconds))], None)
  }

  /** `SetExpiry(key, seconds)`: the EXPIRE command. It returns the command's
      error and nothing else; an absent key is left absent without error and
      a non-positive duration deletes the key, as the server does. */
  function SetExpiry(store: Store, key: string, seconds: int, now: int,
                     fault: Option<Err>): (r: (Store, Option<Err>))
    ensures fault.Some? ==> r == (store, fault)
    ensures fault.None? ==> r.1.None?
    ensures fault.None? && !Present(store, key, now) ==> r.0 == store
    ensures fault.None? && Present(store, key, now) && seconds > 0 ==>
              r.0 == store[key := store[key].(expiresAt := Some(now + seconds))]
    ensures fault.None? && Present(store, key, now) && seconds <= 0 ==>
              key !in r.0 && r.0.Keys == store.Keys - {key}
  {
    if fault.Some? then (store, fault)
    else if !Present(store, key, now) then (store, None)
    else if seconds > 0 then (store[key := store[key].(expiresAt := Some(now + seconds))], None)
    else (store - {key}, None)
  }

  /** The effect of a scheduled command when it reaches the server. */
  function Run(store: Store, cmd: Command, now: int, fault: Option<Err>): (Store, Option<Err>)
  {
    match cmd
    case SetCmd(k, v, d) => Set(store, k, v, d, now, fault)
    case SetExpiryCmd(k, d) => SetExpiry(store, k, d, now, fault)
  }

  /** A string written with `Set` is read back unchanged by `Get` while it lives. */
  lemma {:induction false} SetThenGet(store: Store, key: string, value: string, seconds: int,
                                      t0: int, t: int, dest: string)
    requires t0 <= t && (seconds <= 0 || t < t0 + seconds)
    ensures Get(Set(store, key, value, seconds, t0, None).0, key, t, None, dest) == Read(value, None)
  {
    JsonString.UnmarshalMarshal(value);
  }

  /** Sliding expiry: after a refresh to `seconds` applied at `ta`, the key
      stays readable for `seconds` more, whatever its old deadline was. */
  lemma {:induction false} RefreshSlides(store: Store, key: string, seconds: int, ta: int, t: int)
    requires Present(store, key, ta)
    requires seconds > 0 && ta <= t < ta + seconds
    ensures Present(SetExpiry(store, key, seconds, ta, None).0, key, t)
    ensures Fetch(SetExpiry(store, key, seconds, ta, None).0, key, t, None) == Fetch(store, key, ta, None)
  {
  }
}

=== FILE: create_service.dfy ===
/** Link creation (internal/create/service/create.go) and its handler
    (internal/create/http/handlers.go): validation, a generated short id,
    the optional owner, and one insert. */
module CreateService {
  import opened Wrappers
  import opened Errors
  import UrlRepository
  import IdGen
  import Strings
  import Response
  import Middleware
  import Jwt
  import RetrieveService

  /** The request body: the long URL and an optional expiry second. */
  datatype CreateReq = CreateReq(longUrl: string, expiresAt: Option<int>)

  /** The creation and default expiry seconds `PopulateValues` would set;
      that method is not defined for URLs, so the values are inputs. */
  datatype Stamps = Stamps(createdAt: int, expiresAt: int)

  /** What `Create` returns, or a runtime panic of the id generator. */
  datatype Created =
    | Created(table: UrlRepository.UrlTable, result: Result<UrlRecord, Err>)
    | Panicked

  type UrlRecord = UrlRepository.UrlRecord

  /** The record `Create` builds before inserting it. */
  function Record(shortId: string, callerId: string, req: CreateReq, stamps: Stamps): (rec: UrlRecord)
    ensures rec.shortId == shortId && rec.longUrl == req.longUrl && rec.createdAt == stamps.createdAt
    ensures rec.owner.None? <==> callerId == ""
    ensures rec.owner.Some? ==> rec.owner.value == callerId
    ensures req.expiresAt.Some? ==> rec.expiresAt == req.expiresAt.value
    ensures req.expiresAt.None? ==> rec.expiresAt == stamps.expiresAt
  {
    UrlRepository.UrlRecord(
      shortId,
      req.longUrl,
      if callerId == "" then None else Some(callerId),
      stamps.createdAt,
      if req.expiresAt.Some? then req.expiresAt.value else stamps.expiresAt)
  }

  /** `Create(ctx, id, req)`: a validation failure returns at once; then the
      id generator runs with the configured default length (a negative length
      panics), the owner is the caller id unless it is "", and the record is
      inserted. The record returned is the one inserted. */
  function Create(defaultLength: int, table: UrlRepository.UrlTable, callerId: string, req: CreateReq,
                  invalid: Option<Err>, draws: seq<int>, stamps: Stamps, fault: Option<Err>): (r: Created)
    requires IdGen.ValidDraws(draws) && defaultLength <= |draws|
    ensures invalid.Some? ==> r == Created(table, Failure(invalid.value))
    ensures invalid.None? ==> (r.Panicked? <==> defaultLength < 0)
    ensures r.Created? && r.result.Success? ==>
              && invalid.None?
              && r.result.value == Record(IdGen.Id(draws[..defaultLength]), callerId, req, stamps)
              && UrlRepository.Insert(table, r.result.value, fault) == (r.table, None)
    ensures r.Created? && invalid.None? && r.result.Failure? ==>
              var rec := Record(IdGen.Id(draws[..defaultLength]), callerId, req, stamps);
              UrlRepository.Insert(table, rec, fault) == (r.table, Some(r.result.error))
  {
    if invalid.Some? then Created(table, Failure(invalid.value))
    else if defaultLength < 0 then Panicked
    else
      var rec := Record(IdGen.Id(draws[..defaultLength]), callerId, req, stamps);
      var (table', err) := UrlRepository.Insert(table, rec, fault);
      if err.Some? then Created(table', Failure(err.value)) else Created(table', Success(rec))
  }

  /** A request that fails validation never reaches the store: the answer
      does not depend on the table, the id draws or the database. */
  lemma ValidationPrecedesInsert(n1: int, n2: int, t1: UrlRepository.UrlTable, t2: UrlRepository.UrlTable,
                                 callerId: string, req: CreateReq, e: Err,
                                 d1: seq<int>, d2: seq<int>, stamps: Stamps, f1: Option<Err>, f2: Option<Err>)
    requires IdGen.ValidDraws(d1) && n1 <= |d1|
    requires IdGen.ValidDraws(d2) && n2 <= |d2|
    ensures Create(n1, t1, callerId, req, Some(e), d1, stamps, f1).result
         == Create(n2, t2, callerId, req, Some(e), d2, stamps, f2).result
  {
  }

  /** The short id has exactly the configured length and is alphanumeric. */
  lemma {:induction false} CreatedIdShape(defaultLength: int, table: UrlRepository.UrlTable, callerId: string,
                                          req: CreateReq, draws: seq<int>, stamps: Stamps, fault: Option<Err>)
    requires IdGen.ValidDraws(draws) && defaultLength <= |draws|
    requires Create(defaultLength, table, callerId, req, None, draws, stamps, fault).Created?
    requires Create(defaultLength, table, callerId, req, None, draws, stamps, fault).result.Success?
    ensures var id := Create(defaultLength, table, callerId, req, None, draws, stamps, fault).result.value.shortId;
            |id| == defaultLength && Strings.Utf8Len(id) == defaultLength
            && forall i :: 0 <= i < |id| ==> IdGen.IsAlnum(id[i])
  {
    var d := draws[..defaultLength];
    assert IdGen.ValidDraws(d);
    IdGen.IdByteLength(d);
    IdGen.IdCharacters(d);
    IdGen.AlphabetIsAlnum();
  }

  /** A link created while the retrieve guard expects the same length is
      then resolved by the retrieve service to its long URL. */
  lemma {:induction false} CreatedLinkResolves(defaultLength: int, table: UrlRepository.UrlTable, callerId: string,
                                               req: CreateReq, draws: seq<int>, stamps: Stamps)
    requires IdGen.ValidDraws(draws) && defaultLength <= |draws|
    requires Create(defaultLength, table, callerId, req, None, draws, stamps, None).Created?
    requires Create(defaultLength, table, callerId, req, None, draws, stamps, None).result.Success?
    ensures var c := Create(defaultLength, table, callerId, req, None, draws, stamps, None);
            RetrieveService.GetLongUrlByShortId(defaultLength, c.table, c.result.value.shortId, None)
              == Success(req.longUrl)
            && RetrieveService.Retrieve(defaultLength, c.table, c.result.value.shortId, None)
              == Success((req.longUrl, c.result.value.owner))
  {
    CreatedIdShape(defaultLength, table, callerId, req, draws, stamps, None);
  }

  /** The handler's reply. */
  datatype Reply =
    | Fail(status: int, body: map<string, string>)
    | Ok(url: UrlRecord)                         // 200 with short_id, long_url, created_at, expires_at
    | Panic

  const StatusBadRequest := 400
  const StatusInternalServerError := 500

  /** The handler with the context key it reads the caller id from. */
  function HandleWithKey(key: string, env: string, bind: Result<CreateReq, Err>, vars: map<string, Jwt.Json>,
                         defaultLength: int, table: UrlRepository.UrlTable, invalid: Option<Err>,
                         draws: seq<int>, stamps: Stamps, fault: Option<Err>): (r: (UrlRepository.UrlTable, Reply))
    requires IdGen.ValidDraws(draws) && defaultLength <= |draws|
    ensures bind.Failure? ==> r == (table, Fail(StatusBadRequest, Response.Error(env, StatusBadRequest, bind.error, Response.InvalidParameters).body))
    ensures bind.Success? ==>
              var c := Create(defaultLength, table, Middleware.GetString(vars, key), bind.value, invalid, draws, stamps, fault);
              && (c.Panicked? <==> r.1.Panic?)
              && (c.Created? ==> r.0 == c.table)
              && (r.1.Ok? <==> c.Created? && c.result.Success?)
              && (r.1.Ok? ==> r.1.url == c.result.value)
              && (c.Created? && c.result.Failure? ==>
                    r == (c.table, Fail(StatusInternalServerError,
                                        Response.Error(env, StatusInternalServerError, c.result.error,
                                                       Response.SomethingWentWrong).body)))
    ensures r.1.Fail? && r.1.status != StatusBadRequest ==> r.1.status == StatusInternalServerError
  {
    if bind.Failure? then
      (table, Fail(StatusBadRequest, Response.Error(env, StatusBadRequest, bind.error, Response.InvalidParameters).body))
    else
      match Create(defaultLength, table, Middleware.GetString(vars, key), bind.value, invalid, draws, stamps, fault)
      case Panicked => (table, Panic)
      case Created(t, Failure(e)) =>
        (t, Fail(StatusInternalServerError, Response.Error(env, StatusInternalServerError, e, Response.SomethingWentWrong).body))
      case Created(t, Success(url)) => (t, Ok(url))
  }

  /** `Create` as written: the caller id is read from the "userID" key. A
      created link is owned exactly when that key holds a non-empty string,
      and then by that string; the link is stored under its id. */
  function Handle(env: string, bind: Result<CreateReq, Err>, vars: map<string, Jwt.Json>,
                  defaultLength: int, table: UrlRepository.UrlTable, invalid: Option<Err>,
                  draws: seq<int>, stamps: Stamps, fault: Option<Err>): (r: (UrlRepository.UrlTable, Reply))
    requires IdGen.ValidDraws(draws) && defaultLength <= |draws|
    ensures bind.Failure? ==> r.0 == table && r.1.Fail? && r.1.status == StatusBadRequest
    ensures r.1.Ok? ==> bind.Success? && r.1.url.longUrl == bind.value.longUrl
    ensures r.1.Ok? ==> r.1.url.shortId in r.0 && r.0[r.1.url.shortId] == r.1.url
    ensures r.1.Ok? ==> (r.1.url.owner.None? <==> Middleware.GetString(vars, "userID") == "")
    ensures r.1.Ok? && r.1.url.owner.Some? ==> "userID" in vars && vars["userID"] == Jwt.JStr(r.1.url.owner.value)
    ensures bind.Success? ==>
              var c := Create(defaultLength, table, Middleware.GetString(vars, "userID"), bind.value, invalid, draws, stamps, fault);
              c.Created? && c.result.Failure? ==>
                r == (c.table, Fail(StatusInternalServerError,
                                    Response.Error(env, StatusInternalServerError, c.result.error,
                                                   Response.SomethingWentWrong).body))
  {
    HandleWithKey("userID", env, bind, vars, defaultLength, table, invalid, draws, stamps, fault)
  }

  /** `Create` reading the key the gate sets, "userId": a created link is
      owned exactly when the gate identified a caller, and then by that id. */
  function HandleCorrected(env: string, bind: Result<CreateReq, Err>, vars: map<string, Jwt.Json>,
                           defaultLength: int, table: UrlRepository.UrlTable, invalid: Option<Err>,
                           draws: seq<int>, stamps: Stamps, fault: Option<Err>): (r: (UrlRepository.UrlTable, Reply))
    requires IdGen.ValidDraws(draws) && defaultLength <= |draws|
    ensures bind.Failure? ==> r.0 == table && r.1.Fail? && r.1.status == StatusBadRequest
    ensures r.1.Ok? ==> bind.Success? && r.1.url.longUrl == bind.value.longUrl
    ensures r.1.Ok? ==> r.1.url.shortId in r.0 && r.0[r.1.url.shortId] == r.1.url
    ensures r.1.Ok? ==> (r.1.url.owner.None? <==> Middleware.GetString(vars, "userId") == "")
    ensures r.1.Ok? && r.1.url.owner.Some? ==> "userId" in vars && vars["userId"] == Jwt.JStr(r.1.url.owner.value)
    ensures bind.Success? ==>
              var c := Create(defaultLength, table, Middleware.GetString(vars, "userId"), bind.value, invalid, draws, stamps, fault);
              c.Created? && c.result.Failure? ==>
                r == (c.table, Fail(StatusInternalServerError,
                                    Response.Error(env, StatusInternalServerError, c.result.error,
                                                   Response.SomethingWentWrong).body))
  {
    HandleWithKey("userId", env, bind, vars, defaultLength, table, invalid, draws, stamps, fault)
  }

  /** Behind the optional gate, the handler as written never sees an owner:
      even a valid access token for a user yields an anonymous link. */
  lemma {:induction false} GatedLinksAreAnonymous(lib: Jwt.Signer, secret: string, now: int, header: string,
                                                  env: string, req: CreateReq, defaultLength: int,
                                                  table: UrlRepository.UrlTable, draws: seq<int>,
                                                  stamps: Stamps, fault: Option<Err>)
    requires IdGen.ValidDraws(draws) && defaultLength <= |draws|
    requires Middleware.OptionalJWTAuth(lib, secret, now, header).Passed?
    ensures var vars := Middleware.OptionalJWTAuth(lib, secret, now, header).vars;
            var r := Handle(env, Success(req), vars, defaultLength, table, None, draws, stamps, fault);
            r.1.Ok? ==> r.1.url.owner.None?
  {
    var vars := Middleware.OptionalJWTAuth(lib, secret, now, header).vars;
    assert "userID" !in vars;
  }

  /** With the key corrected, a caller admitted with a token whose id is a
      non-empty string owns the link, and a request without a header does not. */
  lemma {:induction false} CorrectedGateAssignsOwner(lib: Jwt.Signer, secret: string, now: int, header: string,
                                                     env: string, req: CreateReq, defaultLength: int,
                                                     table: UrlRepository.UrlTable, draws: seq<int>,
                                                     stamps: Stamps, fault: Option<Err>, userId: string)
    requires IdGen.ValidDraws(draws) && defaultLength <= |draws|
    requires Middleware.OptionalJWTAuth(lib, secret, now, header).Passed?
    requires header != "" ==>
               Middleware.Field(Jwt.ValidateToken(lib, secret, header, now).value.value, "id") == Jwt.JStr(userId)
    requires userId != ""
    ensures var vars := Middleware.OptionalJWTAuth(lib, secret, now, header).vars;
            var r := HandleCorrected(env, Success(req), vars, defaultLength, table, None, draws, stamps, fault);
            r.1.Ok? ==> r.1.url.owner == (if header == "" then None else Some(userId))
  {
  }
}

=== FILE: errors.dfy ===
/** Go `error` values as far as the core inspects them: by identity
    (`errors.Is`, `errors.As`) or by their text (`err.Error()`). */
module Errors {

  datatype Err =
    | Message(text: string)               // errors.New(text): only its text identifies it
    | NoRows                              // pgx.ErrNoRows
    | CacheNil                            // go-redis Nil reply: the key is absent
    | PgError(code: string, detail: string) // *pgconn.PgError with its SQLSTATE code
    | Expired                             // jwt-go validation error for a passed `exp`

  /** `err.Error()`. */
  function Text(e: Err): string
  {
    match e
    case Message(t) => t
    case NoRows => "no rows in result set"
    case CacheNil => "redis: nil"
    case PgError(code, detail) => "ERROR: " + detail + " (SQLSTATE " + code + ")"
    case Expired => "Token is expired"
  }

  /** SQLSTATE of a unique-constraint violation. */
  const UniqueViolation := "23505"
}

=== FILE: idgen.dfy ===
/** The short-id generator (pkg/utils/idgen.go). The random source is an
    input: `draws` is the sequence of values `r.Intn(62)` returns, in order. */
module IdGen {
  import opened Wrappers
  import Strings

  const Digits: string := "0123456789"
  const Upper: string := "ABCDEFGHIJKLMNOPQRSTUVWXYZ"
  const Lower: string := "abcdefghijklmnopqrstuvwxyz"

  /** The generator's fixed 62-letter alphabet: digits, then upper case, then
      lower case letters. */
  const Chars: string := Digits + Upper + Lower

  /** A value `r.Intn(len(chars))` can return. */
  predicate IsDraw(k: int)
  {
    0 <= k < |Chars|
  }

  predicate ValidDraws(draws: seq<int>)
  {
    forall i :: 0 <= i < |draws| ==> IsDraw(draws[i])
  }

  predicate IsAlnum(c: char)
  {
    '0' <= c <= '9' || 'A' <= c <= 'Z' || 'a' <= c <= 'z'
  }

  /** The id the draws determine, one alphabet letter per draw. */
  function Id(draws: seq<int>): (s: string)
    requires ValidDraws(draws)
    ensures |s| == |draws|
  {
    if |draws| == 0 then "" else [Chars[draws[0]]] + Id(draws[1..])
  }

  /** Position of an alphanumeric character in the alphabet, by range. */
  function Rank(c: char): int
  {
    if c <= '9' then c as int - '0' as int
    else if c <= 'Z' then c as int - 'A' as int + 10
    else c as int - 'a' as int + 36
  }

  /** Each run of the alphabet is alphanumeric and ranked from `base`. */
  predicate RankedRun(s: string, base: int)
  {
    forall k :: 0 <= k < |s| ==> IsAlnum(s[k]) && Rank(s[k]) == base + k
  }

  lemma Runs()
    ensures RankedRun(Digits, 0) && RankedRun(Upper, 10) && RankedRun(Lower, 36)
  {
    var d, u, l := "0123456789", "ABCDEFGHIJKLMNOPQRSTUVWXYZ", "abcdefghijklmnopqrstuvwxyz";
    assert Digits == d && Upper == u && Lower == l;
  }

  /** The alphabet is exactly the ASCII letters and digits, in rank order, so
      every draw picks a distinct character. */
  lemma AlphabetIsAlnum()
    ensures |Chars| == 62
    ensures forall k :: 0 <= k < |Chars| ==> IsAlnum(Chars[k]) && Rank(Chars[k]) == k
  {
    Runs();
    forall k | 0 <= k < |Chars| ensures IsAlnum(Chars[k]) && Rank(Chars[k]) == k {
      if k < 10 {
        assert Chars[k] == Digits[k];
      } else if k < 36 {
        assert Chars[k] == Upper[k - 10];
      } else {
        assert Chars[k] == Lower[k - 36];
      }
    }
  }

  /** Every alphanumeric character is the alphabet's letter at its rank. */
  lemma AlnumInAlphabet(c: char)
    requires IsAlnum(c)
    ensures IsDraw(Rank(c)) && Chars[Rank(c)] == c
  {
    AlphabetIsAlnum();
    var k := Rank(c);
    if c <= '9' {
      assert Chars[k] == Digits[k] && Rank(Digits[k]) == k;
    } else if c <= 'Z' {
      assert Chars[k] == Upper[k - 10] && Rank(Upper[k - 10]) == k;
    } else {
      assert Chars[k] == Lower[k - 36] && Rank(Lower[k - 36]) == k;
    }
  }

  /** `IDGenerator(length)`: `make([]byte, length)` panics on a negative
      length (None); otherwise position `i` is `chars[draws[i]]`. */
  method IdGenerator(length: int, draws: seq<int>) returns (r: Option<string>)
    requires ValidDraws(draws)
    requires length <= |draws|
    ensures r.None? <==> length < 0
    ensures r.Some? ==> |r.value| == length
    ensures r.Some? ==> forall i :: 0 <= i < length ==> r.value[i] == Chars[draws[i]]
    ensures r.Some? ==> forall i :: 0 <= i < length ==> IsAlnum(r.value[i])
    ensures r.Some? ==> r.value == Id(draws[..length])
  {
    if length < 0 {
      return None;
    }
    AlphabetIsAlnum();
    var result: string := [];
    var i := 0;
    while i < length
      invariant 0 <= i <= length
      invariant |result| == i
      invariant forall j :: 0 <= j < i ==> result[j] == Chars[draws[j]]
    {
      result := result + [Chars[draws[i]]];
      i := i + 1;
    }
    IdCharacters(draws[..length]);
    return Some(result);
  }

  /** The generator agrees with `Id` on the draws it consumes. */
  lemma {:induction false} IdCharacters(draws: seq<int>)
    requires ValidDraws(draws)
    ensures forall i :: 0 <= i < |draws| ==> Id(draws)[i] == Chars[draws[i]]
  {
    if |draws| > 0 {
      IdCharacters(draws[1..]);
      forall i | 0 < i < |draws| ensures Id(draws)[i] == Chars[draws[i]] {
        assert Id(draws)[i] == Id(draws[1..])[i - 1];
      }
    }
  }

  /** Distinct draw sequences give distinct ids: the id determines the draws. */
  lemma {:induction false} IdInjective(a: seq<int>, b: seq<int>)
    requires ValidDraws(a) && ValidDraws(b)
    requires Id(a) == Id(b)
    ensures a == b
  {
    IdCharacters(a);
    IdCharacters(b);
    AlphabetIsAlnum();
    forall i | 0 <= i < |a| ensures a[i] == b[i] {
      assert Rank(Chars[a[i]]) == a[i] && Rank(Chars[b[i]]) == b[i];
    }
  }

  /** Every id is ASCII, so its byte length equals its character count. */
  lemma {:induction false} IdByteLength(draws: seq<int>)
    requires ValidDraws(draws)
    ensures Strings.IsAscii(Id(draws))
    ensures Strings.Utf8Len(Id(draws)) == |draws|
  {
    IdCharacters(draws);
    AlphabetIsAlnum();
    Strings.AsciiLength(Id(draws));
  }
}

=== FILE: json_string.dfy ===
/** JSON text of a Go string as `encoding/json` writes it (`json.Marshal`,
    with its default HTML-safe escaping) and reads it back (`json.Unmarshal`
    into a `*string`). Values are Unicode scalar sequences, so Go's
    replacement of invalid UTF-8 never arises. */
module JsonString {
  import opened Wrappers

  const Hex := "0123456789abcdef"

  /** What `json.Unmarshal(text, &dest)` does to a string destination. */
  datatype Decoded =
    | Text(s: string)   // a string literal: dest is overwritten
    | Null              // the literal `null`: dest is left as it was, no error
    | Invalid           // a syntax or type error: dest is left as it was

  /** How the encoder writes one character inside the quotes. */
  function EscapeChar(c: char): (e: string)
    ensures |e| >= 1
    ensures e[0] == '\\' || e == [c]
  {
    if c == '"' || c == '\\' then ['\\', c]
    else if c == 8 as char then "\\b"
    else if c == 12 as char then "\\f"
    else if c == '\n' then "\\n"
    else if c == '\r' then "\\r"
    else if c == '\t' then "\\t"
    else if c < ' ' || c == '<' || c == '>' || c == '&' then
      "\\u00" + [Hex[c as int / 16], Hex[c as int % 16]]
    else if c == 0x2028 as char || c == 0x2029 as char then
      "\\u202" + [Hex[c as int % 16]]
    else [c]
  }

  function EscapeAll(s: string): string
  {
    if |s| == 0 then "" else EscapeChar(s[0]) + EscapeAll(s[1..])
  }

  /** `json.Marshal` of a string value. */
  function Marshal(s: string): (t: string)
    ensures |t| >= 2 && t[0] == '"' && t[|t| - 1] == '"'
  {
    "\"" + EscapeAll(s) + "\""
  }

  predicate IsSpace(c: char)
  {
    c == ' ' || c == '\t' || c == '\n' || c == '\r'
  }

  function TrimLeft(t: string): (u: string)
    ensures |u| <= |t|
    ensures |u| > 0 ==> !IsSpace(u[0])
    ensures |t| > 0 && !IsSpace(t[0]) ==> u == t
  {
    if |t| > 0 && IsSpace(t[0]) then TrimLeft(t[1..]) else t
  }

  function TrimRight(t: string): (u: string)
    ensures |u| <= |t|
    ensures |u| > 0 ==> !IsSpace(u[|u| - 1])
    ensures |t| > 0 && !IsSpace(t[|t| - 1]) ==> u == t
  {
    if |t| > 0 && IsSpace(t[|t| - 1]) then TrimRight(t[..|t| - 1]) else t
  }

  function HexDigit(c: char): (v: Option<nat>)
    ensures v.Some? ==> v.value < 16
  {
    if '0' <= c <= '9' then Some(c as int - '0' as int)
    else if 'a' <= c <= 'f' then Some(c as int - 'a' as int + 10)
    else if 'A' <= c <= 'F' then Some(c as int - 'A' as int + 10)
    else None
  }

  /** The four hex digits of a `\uXXXX` escape. */
  function Hex4(b: string): (v: Option<nat>)
    requires |b| == 4
    ensures v.Some? ==> v.value < 0x1_0000
  {
    match (HexDigit(b[0]), HexDigit(b[1]), HexDigit(b[2]), HexDigit(b[3]))
    case (Some(a), Some(x), Some(y), Some(z)) => Some(((a * 16 + x) * 16 + y) * 16 + z)
    case _ => None
  }

  function Prepend(c: char, rest: Option<string>): Option<string>
  {
    match rest
    case Some(s) => Some([c] + s)
    case None => None
  }

  /** The body of a string literal (between the quotes) decoded, or None
      when the literal is not valid JSON. Every escape decodes to at most
      one character, and text without quotes, backslashes or control
      characters decodes to itself. A surrogate pair becomes one
      character; a lone surrogate becomes U+FFFD, as Go does. */
  function Unescape(b: string): (r: Option<string>)
    ensures r.Some? ==> |r.value| <= |b|
    ensures (forall i :: 0 <= i < |b| ==> b[i] != '"' && b[i] != '\\' && b[i] >= ' ') ==> r == Some(b)
    decreases |b|
  {
    if |b| == 0 then Some("")
    else if b[0] == '"' || b[0] < ' ' then None
    else if b[0] != '\\' then
      assert b == [b[0]] + b[1..];
      assert forall i :: 0 <= i < |b[1..]| ==> b[1..][i] == b[i + 1];
      Prepend(b[0], Unescape(b[1..]))
    else if |b| < 2 then None
    else
      var e := b[1];
      if e == '"' || e == '\\' || e == '/' then Prepend(e, Unescape(b[2..]))
      else if e == 'b' then Prepend(8 as char, Unescape(b[2..]))
      else if e == 'f' then Prepend(12 as char, Unescape(b[2..]))
      else if e == 'n' then Prepend('\n', Unescape(b[2..]))
      else if e == 'r' then Prepend('\r', Unescape(b[2..]))
      else if e == 't' then Prepend('\t', Unescape(b[2..]))
      else if e == 'u' && |b| >= 6 && Hex4(b[2..6]).Some? then
        var v := Hex4(b[2..6]).value;
        if v < 0xD800 || 0xE000 <= v then Prepend(v as char, Unescape(b[6..]))
        else if v < 0xDC00 && |b| >= 12 && b[6] == '\\' && b[7] == 'u'
                && Hex4(b[8..12]).Some? && 0xDC00 <= Hex4(b[8..12]).value < 0xE000 then
          var w := Hex4(b[8..12]).value;
          Prepend((0x1_0000 + (v - 0xD800) * 0x400 + (w - 0xDC00)) as char, Unescape(b[12..]))
        else Prepend(0xFFFD as char, Unescape(b[6..]))
      else None
  }

  /** `json.Unmarshal` of `t` into a string destination. */
  function Unmarshal(t: string): (d: Decoded)
    ensures d.Null? ==> TrimRight(TrimLeft(t)) == "null"
    ensures d.Text? ==> var u := TrimRight(TrimLeft(t));
                        |u| >= 2 && u[0] == '"' && Unescape(u[1..|u| - 1]) == Some(d.s)
  {
    var u := TrimRight(TrimLeft(t));
    if u == "null" then Null
    else if |u| >= 2 && u[0] == '"' && u[|u| - 1] == '"' then
      match Unescape(u[1..|u| - 1])
      case Some(s) => Text(s)
      case None => Invalid
    else Invalid
  }

  lemma HexDigitOfHex(i: nat)
    requires i < 16
    ensures HexDigit(Hex[i]) == Some(i)
  {
  }

  /** A two-character escape decodes to the character it stands for. */
  lemma UnescapeShort(e: char, rest: string)
    requires e in "\"\\btnrf"
    ensures Unescape(['\\', e] + rest)
         == Prepend(if e == 'b' then 8 as char else if e == 'f' then 12 as char
                    else if e == 'n' then '\n' else if e == 'r' then '\r'
                    else if e == 't' then '\t' else e, Unescape(rest))
  {
    var b := ['\\', e] + rest;
    assert b[0] == '\\' && b[1] == e;
    assert b[2..] == rest;
  }

  /** A `\uXXXX` escape of a non-surrogate code point decodes to that character. */
  lemma UnescapeU(h: string, rest: string)
    requires |h| == 4 && Hex4(h).Some?
    requires Hex4(h).value < 0xD800 || 0xE000 <= Hex4(h).value
    ensures Unescape("\\u" + h + rest) == Prepend(Hex4(h).value as char, Unescape(rest))
  {
    var b := "\\u" + h + rest;
    assert b[0] == '\\' && b[1] == 'u';
    assert b[2..6] == h;
    assert b[6..] == rest;
  }

  /** A character written as itself decodes to itself. */
  lemma UnescapePlain(c: char, rest: string)
    requires c != '"' && c != '\\' && c >= ' '
    ensures Unescape([c] + rest) == Prepend(c, Unescape(rest))
  {
    assert ([c] + rest)[1..] == rest;
  }

  /** Decoding one escaped character followed by more text yields that
      character followed by the decoding of the rest. */
  lemma UnescapeEscapeChar(c: char, rest: string)
    ensures Unescape(EscapeChar(c) + rest) == Prepend(c, Unescape(rest))
  {
    if c == '"' || c == '\\' {
      UnescapeShort(c, rest);
    } else if c == 8 as char {
      UnescapeShort('b', rest);
    } else if c == 12 as char {
      UnescapeShort('f', rest);
    } else if c == '\n' {
      UnescapeShort('n', rest);
    } else if c == '\r' {
      UnescapeShort('r', rest);
    } else if c == '\t' {
      UnescapeShort('t', rest);
    } else if c < ' ' || c == '<' || c == '>' || c == '&' {
      var hi, lo := c as int / 16, c as int % 16;
      HexDigitOfHex(hi);
      HexDigitOfHex(lo);
      var h := ['0', '0', Hex[hi], Hex[lo]];
      assert Hex4(h) == Some(c as int);
      assert EscapeChar(c) + rest == "\\u" + h + rest;
      UnescapeU(h, rest);
    } else if c == 0x2028 as char || c == 0x2029 as char {
      var lo := c as int % 16;
      HexDigitOfHex(lo);
      var h := ['2', '0', '2', Hex[lo]];
      assert Hex4(h) == Some(c as int);
      assert EscapeChar(c) + rest == "\\u" + h + rest;
      UnescapeU(h, rest);
    } else {
      UnescapePlain(c, rest);
    }
  }

  lemma {:induction false} UnescapeEscapeAll(s: string)
    ensures Unescape(EscapeAll(s)) == Some(s)
  {
    if |s| > 0 {
      UnescapeEscapeChar(s[0], EscapeAll(s[1..]));
      UnescapeEscapeAll(s[1..]);
      assert [s[0]] + s[1..] == s;
    }
  }

  /** Round trip: every string survives `json.Marshal` then `json.Unmarshal`. */
  lemma {:induction false} UnmarshalMarshal(s: string)
    ensures Unmarshal(Marshal(s)) == Text(s)
  {
    var t := Marshal(s);
    assert TrimRight(TrimLeft(t)) == t;
    assert t[1..|t| - 1] == EscapeAll(s);
    UnescapeEscapeAll(s);
  }

  /** A marshalled string is never the literal `null`. */
  lemma MarshalNotNull(s: string)
    ensures Unmarshal(Marshal(s)) != Null
  {
    UnmarshalMarshal(s);
  }
}

=== FILE: jwt.dfy ===
/** Token issuance and validation (pkg/jwt/jwt.go). A token is a JWT
    (RFC 7519) whose claims are `payload`, a JSON object carrying a `type`
    tag, and `exp` (section 4.1.4 of RFC 7519), signed with HS256 (section
    3.2 of RFC 7518). Signing, serialization and signature checking are
    uninterpreted (`Signer`); the claim checks the library performs after
    the signature and the handling of the payload are modelled. */
module Jwt {
  import opened Wrappers
  import opened Errors
  import Strings

  const AccessTokenExpiredTime := 5 * 60 * 60     // seconds
  const RefreshTokenExpiredTime := 7 * 24 * 3600  // seconds
  const AccessTokenType := "x-access"
  const RefreshTokenType := "x-refresh"

  /** The scheme prefix `ValidateToken` strips. */
  const Bearer := "Bearer "

  /** A JSON value inside the payload; only strings are inspected. */
  datatype Json = JStr(s: string) | JNull | JOther

  type Payload = map<string, Json>

  /** The `payload` claim: absent or null, a JSON object, or another JSON value. */
  datatype PayloadClaim = NoPayload | Object(fields: Payload) | NotObject

  /** The `exp` claim: absent, a NumericDate in seconds, or not a number. */
  datatype ExpClaim = NoExp | ExpAt(sec: int) | ExpNotNumber

  datatype Claims = Claims(payload: PayloadClaim, exp: ExpClaim)

  /** HS256 over the compact serialization: `sign` yields the token or
      fails; `verify` parses a token and checks its signature under a
      secret, yielding the claims or the parse/signature error. */
  datatype Signer = Signer(
    sign: (Claims, string) -> Option<string>,
    verify: (string, string) -> Result<Claims, Err>)

  /** The signer behaves as a MAC should for these claims: what it signs
      verifies back to the same claims under the same secret, and the
      compact form (base64url and dots) holds no "Bearer ". */
  predicate SoundFor(lib: Signer, secret: string, claims: Claims)
  {
    match lib.sign(claims, secret)
    case None => true
    case Some(t) => !Strings.Contains(t, Bearer) && lib.verify(t, secret) == Success(claims)
  }

  /** A token, and the caller's payload map after the call: the generators
      write the tag into the map they are given. */
  datatype Issued = Issued(token: string, payload: Payload)

  /** The claims a generator signs. */
  function TokenClaims(payload: Payload, tag: string, lifetime: int, now: int): (c: Claims)
    ensures c.payload.Object? && c.payload.fields == payload["type" := JStr(tag)]
    ensures c.exp.ExpAt? && c.exp.sec - now == lifetime
  {
    Claims(Object(payload["type" := JStr(tag)]), ExpAt(now + lifetime))
  }

  function Issue(lib: Signer, secret: string, payload: Payload, tag: string, lifetime: int, now: int): (r: Issued)
    ensures r.payload == payload["type" := JStr(tag)]
    ensures lib.sign(TokenClaims(payload, tag, lifetime, now), secret).None? ==> r.token == ""
    ensures lib.sign(TokenClaims(payload, tag, lifetime, now), secret).Some? ==>
              r.token == lib.sign(TokenClaims(payload, tag, lifetime, now), secret).value
  {
    var claims := TokenClaims(payload, tag, lifetime, now);
    var token := match lib.sign(claims, secret)
                 case Some(t) => t
                 case None => "";
    Issued(token, payload["type" := JStr(tag)])
  }

  /** `GenerateAccessToken` at second `now`: tag "x-access", five hours. */
  function GenerateAccessToken(lib: Signer, secret: string, payload: Payload, now: int): (r: Issued)
    ensures r.payload == payload["type" := JStr(AccessTokenType)]
    ensures r.token != "" ==> lib.sign(Claims(Object(r.payload), ExpAt(now + 18000)), secret) == Some(r.token)
  {
    Issue(lib, secret, payload, AccessTokenType, AccessTokenExpiredTime, now)
  }

  /** `GenerateRefreshToken` at second `now`: tag "x-refresh", seven days. */
  function GenerateRefreshToken(lib: Signer, secret: string, payload: Payload, now: int): (r: Issued)
    ensures r.payload == payload["type" := JStr(RefreshTokenType)]
    ensures r.token != "" ==> lib.sign(Claims(Object(r.payload), ExpAt(now + 604800)), secret) == Some(r.token)
  {
    Issue(lib, secret, payload, RefreshTokenType, RefreshTokenExpiredTime, now)
  }

  /** jwt-go's expiry check with `exp` optional: an absent or zero `exp`
      passes, a number passes while `now <= exp`, anything else fails. */
  function ExpOk(exp: ExpClaim, now: int): (ok: bool)
    ensures exp.NoExp? ==> ok
    ensures exp.ExpNotNumber? ==> !ok
    ensures exp.ExpAt? && exp.sec != 0 ==> (ok <==> now <= exp.sec)
  {
    match exp
    case NoExp => true
    case ExpAt(t) => t == 0 || now <= t
    case ExpNotNumber => false
  }

  /** Expiry is final: a claim rejected at some second is rejected at
      every later second. */
  lemma ExpiryIsFinal(exp: ExpClaim, t1: int, t2: int)
    requires !ExpOk(exp, t1) && t1 <= t2
    ensures !ExpOk(exp, t2)
  {
  }

  /** `ValidateToken(header)` at second `now`: the first "Bearer " anywhere in
      the text is removed, the rest is parsed and verified, the claims are
      checked, and the `payload` claim is re-decoded as a JSON object.
      Success(None) is Go's `(nil, nil)`: a token without a payload object. */
  function ValidateToken(lib: Signer, secret: string, header: string, now: int): (r: Result<Option<Payload>, Err>)
    ensures r.Success? ==> var v := lib.verify(Strings.RemoveFirst(header, Bearer), secret);
                           v.Success? && ExpOk(v.value.exp, now)
    ensures r.Success? && r.value.Some? ==>
              lib.verify(Strings.RemoveFirst(header, Bearer), secret).value.payload == Object(r.value.value)
    ensures lib.verify(Strings.RemoveFirst(header, Bearer), secret).Failure? ==>
              r == Failure(lib.verify(Strings.RemoveFirst(header, Bearer), secret).error)
    ensures var v := lib.verify(Strings.RemoveFirst(header, Bearer), secret);
            v.Success? && !ExpOk(v.value.exp, now) ==> r == Failure(Expired)
    ensures var v := lib.verify(Strings.RemoveFirst(header, Bearer), secret);
            v.Success? && ExpOk(v.value.exp, now) && v.value.payload.Object? ==>
              r == Success(Some(v.value.payload.fields))
    ensures var v := lib.verify(Strings.RemoveFirst(header, Bearer), secret);
            v.Success? && ExpOk(v.value.exp, now) && v.value.payload.NoPayload? ==> r == Success(None)
  {
    var clean := Strings.RemoveFirst(header, Bearer);
    match lib.verify(clean, secret)
    case Failure(e) => Failure(e)
    case Success(claims) =>
      if !ExpOk(claims.exp, now) then Failure(Expired)
      else
        match claims.payload
        case NoPayload => Success(None)
        case NotObject => Failure(Message("json: cannot unmarshal into Go value of type map[string]interface {}"))
        case Object(p) => Success(Some(p))
  }

  /** A token fresh from `Issue` validates, with or without the "Bearer "
      prefix, to the tagged payload until its expiry second inclusive, and
      is rejected from the next second on. */
  lemma {:induction false} IssuedTokenValidates(lib: Signer, secret: string, payload: Payload,
                                                tag: string, lifetime: int, now: int, t: int)
    requires SoundFor(lib, secret, TokenClaims(payload, tag, lifetime, now))
    requires lib.sign(TokenClaims(payload, tag, lifetime, now), secret).Some?
    requires now + lifetime != 0
    ensures var tok := Issue(lib, secret, payload, tag, lifetime, now).token;
            && ValidateToken(lib, secret, Bearer + tok, t) == ValidateToken(lib, secret, tok, t)
            && (t <= now + lifetime ==> ValidateToken(lib, secret, tok, t) == Success(Some(payload["type" := JStr(tag)])))
            && (t > now + lifetime ==> ValidateToken(lib, secret, tok, t) == Failure(Expired))
  {
    var tok := Issue(lib, secret, payload, tag, lifetime, now).token;
    Strings.RemoveFirstOfPrefix(Bearer, tok);
  }

  /** An access token validates to the payload tagged "x-access" until five
      hours after issue, and never afterwards. */
  lemma AccessTokenLifetime(lib: Signer, secret: string, payload: Payload, now: nat, t: int)
    requires SoundFor(lib, secret, TokenClaims(payload, AccessTokenType, AccessTokenExpiredTime, now))
    requires GenerateAccessToken(lib, secret, payload, now).token != ""
    ensures var tok := GenerateAccessToken(lib, secret, payload, now).token;
            ValidateToken(lib, secret, tok, t).Success? <==> t <= now + 18000
    ensures var tok := GenerateAccessToken(lib, secret, payload, now).token;
            t <= now + 18000 ==> ValidateToken(lib, secret, tok, t) == Success(Some(payload["type" := JStr("x-access")]))
  {
    IssuedTokenValidates(lib, secret, payload, AccessTokenType, AccessTokenExpiredTime, now, t);
  }

  /** A refresh token validates to the payload tagged "x-refresh" until seven
      days after issue, and never afterwards. */
  lemma RefreshTokenLifetime(lib: Signer, secret: string, payload: Payload, now: nat, t: int)
    requires SoundFor(lib, secret, TokenClaims(payload, RefreshTokenType, RefreshTokenExpiredTime, now))
    requires GenerateRefreshToken(lib, secret, payload, now).token != ""
    ensures var tok := GenerateRefreshToken(lib, secret, payload, now).token;
            ValidateToken(lib, secret, tok, t).Success? <==> t <= now + 604800
    ensures var tok := GenerateRefreshToken(lib, secret, payload, now).token;
            t <= now + 604800 ==> ValidateToken(lib, secret, tok, t) == Success(Some(payload["type" := JStr("x-refresh")]))
  {
    IssuedTokenValidates(lib, secret, payload, RefreshTokenType, RefreshTokenExpiredTime, now, t);
  }

  /** Issuing an access then a refresh token from one map (as Login does)
      leaves the map tagged "x-refresh", while the access token was signed
      over the map as it was then, tagged "x-access". */
  lemma SharedPayloadMap(lib: Signer, secret: string, payload: Payload, now: int)
    ensures var a := GenerateAccessToken(lib, secret, payload, now);
            var r := GenerateRefreshToken(lib, secret, a.payload, now);
            && r.payload["type"] == JStr(RefreshTokenType)
            && r.payload == payload["type" := JStr(RefreshTokenType)]
            && TokenClaims(payload, AccessTokenType, AccessTokenExpiredTime, now).payload.fields["type"] == JStr(AccessTokenType)
  {
  }

  /** The prefix is removed wherever it first occurs, not only at the
      start: text in front of "Bearer " stays part of the token checked. */
  lemma {:induction false} BearerRemovedAnywhere(pre: string, token: string)
    requires forall i :: 0 <= i < |pre| ==> pre[i] != 'B'
    ensures Strings.RemoveFirst(pre + Bearer + token, Bearer) == pre + token
  {
    Strings.RemoveFirstAfter(pre, Bearer, token);
  }
}

=== FILE: middleware.dfy ===
/** The request gates (pkg/middleware/auth.go). A gate either answers 401
    with a null body and aborts the chain, or lets the request continue with
    the context variables it set. */
module Middleware {
  import opened Wrappers
  import Jwt
  import Strings

  datatype Gate =
    | Rejected                                  // c.JSON(401, nil); c.Abort()
    | Passed(vars: map<string, Jwt.Json>)       // c.Next() with these context keys set

  const StatusUnauthorized := 401

  /** `payload[key]` on a Go map of interfaces: nil when absent. */
  function Field(p: Jwt.Payload, key: string): (v: Jwt.Json)
    ensures key !in p ==> v == Jwt.JNull
    ensures key in p ==> v == p[key]
  {
    if key in p then p[key] else Jwt.JNull
  }

  /** `c.GetString(key)`: the string stored under `key`, or "" when the key
      is absent or holds something other than a string. */
  function GetString(vars: map<string, Jwt.Json>, key: string): (s: string)
    ensures s != "" ==> key in vars && vars[key] == Jwt.JStr(s)
    ensures key in vars && vars[key].JStr? ==> s == vars[key].s
  {
    if key in vars && vars[key].JStr? then vars[key].s else ""
  }

  /** `JWT(tokenType)` applied to the Authorization header at second `now`. */
  function JWT(lib: Jwt.Signer, secret: string, now: int, tokenType: string, header: string): (g: Gate)
    ensures header == "" ==> g == Rejected
    ensures g.Passed? <==>
              header != ""
              && var v := Jwt.ValidateToken(lib, secret, header, now);
                 v.Success? && v.value.Some? && Field(v.value.value, "type") == Jwt.JStr(tokenType)
    ensures g.Passed? ==> g.vars.Keys == {"userId"}
    ensures g.Passed? ==> g.vars["userId"] == Field(Jwt.ValidateToken(lib, secret, header, now).value.value, "id")
  {
    if header == "" then Rejected
    else
      match Jwt.ValidateToken(lib, secret, header, now)
      case Failure(_) => Rejected
      case Success(None) => Rejected
      case Success(Some(p)) =>
        if Field(p, "type") != Jwt.JStr(tokenType) then Rejected
        else Passed(map["userId" := Field(p, "id")])
  }

  /** `JWTAuth()`: admits exactly the headers whose token validates to a
      payload tagged "x-access", and sets only the payload's id. */
  function JWTAuth(lib: Jwt.Signer, secret: string, now: int, header: string): (g: Gate)
    ensures g.Passed? <==>
              header != ""
              && var v := Jwt.ValidateToken(lib, secret, header, now);
                 v.Success? && v.value.Some? && Field(v.value.value, "type") == Jwt.JStr("x-access")
    ensures g.Passed? ==>
              g.vars == map["userId" := Field(Jwt.ValidateToken(lib, secret, header, now).value.value, "id")]
  {
    JWT(lib, secret, now, Jwt.AccessTokenType, header)
  }

  /** `JWTRefresh()`: admits exactly the headers whose token validates to a
      payload tagged "x-refresh", and sets only the payload's id. */
  function JWTRefresh(lib: Jwt.Signer, secret: string, now: int, header: string): (g: Gate)
    ensures g.Passed? <==>
              header != ""
              && var v := Jwt.ValidateToken(lib, secret, header, now);
                 v.Success? && v.value.Some? && Field(v.value.value, "type") == Jwt.JStr("x-refresh")
    ensures g.Passed? ==>
              g.vars == map["userId" := Field(Jwt.ValidateToken(lib, secret, header, now).value.value, "id")]
  {
    JWT(lib, secret, now, Jwt.RefreshTokenType, header)
  }

  /** `OptionalJWTAuth()`: no header continues with no identity; any header
      is judged exactly as by `JWTAuth`, rejection included. */
  function OptionalJWTAuth(lib: Jwt.Signer, secret: string, now: int, header: string): (g: Gate)
    ensures header == "" ==> g == Passed(map[])
    ensures header != "" ==> g == JWTAuth(lib, secret, now, header)
  {
    if header != "" then JWTAuth(lib, secret, now, header) else Passed(map[])
  }

  /** Scope separation: no header passes both the access and the refresh gate. */
  lemma ScopesAreDisjoint(lib: Jwt.Signer, secret: string, now: int, header: string)
    ensures !(JWTAuth(lib, secret, now, header).Passed? && JWTRefresh(lib, secret, now, header).Passed?)
  {
  }

  /** Two gates for different tags never both pass the same header. */
  lemma {:induction false} GatesSeparateTags(lib: Jwt.Signer, secret: string, now: int,
                                             t1: string, t2: string, header: string)
    requires t1 != t2
    ensures !(JWT(lib, secret, now, t1, header).Passed? && JWT(lib, secret, now, t2, header).Passed?)
  {
  }

  /** A freshly issued access token passes the access gate until it expires,
      setting only "userId" to the payload's id, and never passes the
      refresh gate. */
  lemma {:induction false} AccessTokenAtGates(lib: Jwt.Signer, secret: string, payload: Jwt.Payload,
                                              issued: nat, now: int)
    requires Jwt.SoundFor(lib, secret, Jwt.TokenClaims(payload, Jwt.AccessTokenType, Jwt.AccessTokenExpiredTime, issued))
    requires Jwt.GenerateAccessToken(lib, secret, payload, issued).token != ""
    ensures var tok := Jwt.GenerateAccessToken(lib, secret, payload, issued).token;
            && !JWTRefresh(lib, secret, now, tok).Passed?
            && (JWTAuth(lib, secret, now, tok).Passed? <==> now <= issued + 18000)
            && (now <= issued + 18000 ==> JWTAuth(lib, secret, now, tok) == Passed(map["userId" := Field(payload, "id")]))
  {
    Jwt.AccessTokenLifetime(lib, secret, payload, issued, now);
  }

  /** A freshly issued refresh token passes the refresh gate until it
      expires and never passes the access gate. */
  lemma {:induction false} RefreshTokenAtGates(lib: Jwt.Signer, secret: string, payload: Jwt.Payload,
                                               issued: nat, now: int)
    requires Jwt.SoundFor(lib, secret, Jwt.TokenClaims(payload, Jwt.RefreshTokenType, Jwt.RefreshTokenExpiredTime, issued))
    requires Jwt.GenerateRefreshToken(lib, secret, payload, issued).token != ""
    ensures var tok := Jwt.GenerateRefreshToken(lib, secret, payload, issued).token;
            && !JWTAuth(lib, secret, now, tok).Passed?
            && (JWTRefresh(lib, secret, now, tok).Passed? <==> now <= issued + 604800)
  {
    Jwt.RefreshTokenLifetime(lib, secret, payload, issued, now);
  }
}

=== FILE: response.dfy ===
/** The JSON error body every handler answers with (pkg/response/error.go). */
module Response {
  import opened Wrappers
  import opened Errors

  const InvalidParameters := "invalid parameters"
  const SomethingWentWrong := "something went wrong"
  const WrongCredentials := "wrong credentials"
  const Unauthorized := "unauthorized"
  const IDNotFound := "id not found"
  const UserAlreadyExists := "user already exists"
  const EmptyUserID := "user id is empty"
  const IDLengthNotInRange := "id length not in range"
  const UserNotFound := "user not found"
  const NoRowsInResultSet := "no rows in result set"

  /** Value of the `environment` setting that hides debug detail. */
  const ProductionEnv := "production"

  /** An error answer: the status and the body map written with `c.JSON`. */
  datatype ErrorReply = ErrorReply(status: int, body: map<string, string>)

  /** `response.Error(c, status, err, message)` under environment `env`. */
  function Error(env: string, status: int, err: Err, message: string): (r: ErrorReply)
    ensures r.status == status
    ensures "message" in r.body && r.body["message"] == message
    ensures "debug" in r.body <==> env != ProductionEnv
    ensures "debug" in r.body ==> r.body["debug"] == Text(err)
    ensures r.body.Keys <= {"message", "debug"}
  {
    var base := map["message" := message];
    ErrorReply(status, if env != ProductionEnv then base["debug" := Text(err)] else base)
  }

  /** In production the body reveals nothing about the cause: two errors
      answered with the same status and message are indistinguishable. */
  lemma ProductionHidesCause(status: int, e1: Err, e2: Err, message: string)
    ensures Error(ProductionEnv, status, e1, message) == Error(ProductionEnv, status, e2, message)
  {
  }

  /** Outside production two causes with different texts give different bodies. */
  lemma DebugRevealsCause(env: string, status: int, e1: Err, e2: Err, message: string)
    requires env != ProductionEnv && Text(e1) != Text(e2)
    ensures Error(env, status, e1, message) != Error(env, status, e2, message)
  {
    assert Error(env, status, e1, message).body["debug"] != Error(env, status, e2, message).body["debug"];
  }
}

=== FILE: retrieve_handler.dfy ===
/** The redirect handler (internal/retrieve/http/handlers.go): cache-aside
    lookup, fallback to the store, the `owner;url` cache value, the click
    event and its topic. The goroutines it starts are returned as an ordered
    list of effects instead of being run. */
module RetrieveHandler {
  import opened Wrappers
  import opened Errors
  import Strings
  import Response
  import Cache
  import UrlRepository
  import RetrieveService

  /** Settings the handler reads from the global configuration. */
  datatype Config = Config(
    idLength: int,            // ShortIdLength
    ttlMinutes: int,          // Redis.TTL
    clicksTopic: string,      // Kafka.ClicksTopic
    publicClicksTopic: string,// Kafka.PublicClicksTopic
    environment: string)

  /** Request data copied into the click event. */
  datatype Request = Request(clientIp: string, userAgent: string, referer: string,
                             forwardedFor: string, host: string)

  /** Work handed to a background goroutine, in the order it is started. */
  datatype Effect =
    | CacheCommand(cmd: Cache.Command)
    | Produce(topic: string, key: string, value: map<string, string>)

  /** What the caller receives. `Panic` is a runtime panic of the handler. */
  datatype Outcome =
    | Redirect(location: string)                       // 301 Moved Permanently
    | Fail(status: int, body: map<string, string>)
    | Panic

  datatype Step = Step(outcome: Outcome, effects: seq<Effect>)

  const MovedPermanently := 301
  const NotFound := 404
  const InternalServerError := 500

  /** Owner recorded for links created without an account. */
  const Anonymous := "-1"

  function TtlSeconds(cfg: Config): int
  {
    cfg.ttlMinutes * 60
  }

  /** The cache value `cache` writes: owner and long URL joined by ';'. */
  function EncodeValue(owner: string, longUrl: string): (v: string)
    ensures ';' in v
    ensures |v| == |owner| + 1 + |longUrl|
  {
    owner + ";" + longUrl
  }

  /** The hit path's `strings.SplitN(value, ";", 2)` followed by `split[0], split[1]`:
      None when the value has no ';' and `split[1]` is out of range. */
  function DecodeValue(v: string): (r: Option<(string, string)>)
    ensures r.None? <==> ';' !in v
    ensures r.Some? ==> ';' !in r.value.0 && v == r.value.0 + ";" + r.value.1
  {
    var parts := Strings.SplitFirst(v, ';');
    if |parts| == 1 then None else Some((parts[0], parts[1]))
  }

  /** Owner sent with the event: the stored user id, or the anonymous sentinel. */
  function OwnerOf(owner: Option<string>): (o: string)
    ensures owner.None? ==> o == Anonymous
    ensures owner.Some? ==> o == owner.value
  {
    match owner
    case None => Anonymous
    case Some(u) => u
  }

  /** The topic `produce` publishes to. */
  function Topic(cfg: Config, owner: string): (t: string)
    ensures owner == Anonymous ==> t == cfg.publicClicksTopic
    ensures owner != Anonymous ==> t == cfg.clicksTopic
  {
    if owner == Anonymous then cfg.publicClicksTopic else cfg.clicksTopic
  }

  /** The click record `produce` builds. */
  function EventValue(req: Request, shortId: string, owner: string, longUrl: string): (m: map<string, string>)
    ensures m.Keys == {"short_id", "short_created_by", "long_url", "ip_address",
                       "user_agent", "referer", "x_forwarded_for", "request_host"}
    ensures m["short_id"] == shortId && m["short_created_by"] == owner && m["long_url"] == longUrl
  {
    map["short_id" := shortId, "short_created_by" := owner, "long_url" := longUrl,
        "ip_address" := req.clientIp, "user_agent" := req.userAgent, "referer" := req.referer,
        "x_forwarded_for" := req.forwardedFor, "request_host" := req.host]
  }

  /** The `go produce(...)` effect: the event keyed by the short id. */
  function ProduceEffect(cfg: Config, req: Request, shortId: string, owner: string, longUrl: string): Effect
  {
    Produce(Topic(cfg, owner), shortId, EventValue(req, shortId, owner, longUrl))
  }

  /** The `go cache(...)` effect. */
  function CacheEffect(cfg: Config, shortId: string, owner: string, longUrl: string): Effect
  {
    CacheCommand(Cache.SetCmd(shortId, EncodeValue(owner, longUrl), TtlSeconds(cfg)))
  }

  /** The store error's answer: 404 "id not found" for the two not-found
      texts, 500 "something went wrong" for everything else. */
  function Classify(cfg: Config, e: Err): (o: Outcome)
    ensures o.Fail? && "message" in o.body
    ensures o.status == NotFound <==> Text(e) == Response.IDNotFound || Text(e) == Response.IDLengthNotInRange
    ensures o.status != NotFound ==> o.status == InternalServerError
    ensures o.status == NotFound ==> o.body["message"] == Response.IDNotFound
    ensures o.status == InternalServerError ==> o.body["message"] == Response.SomethingWentWrong
  {
    if Text(e) == Response.IDNotFound || Text(e) == Response.IDLengthNotInRange then
      Fail(NotFound, Response.Error(cfg.environment, NotFound, e, Response.IDNotFound).body)
    else
      Fail(InternalServerError, Response.Error(cfg.environment, InternalServerError, e, Response.SomethingWentWrong).body)
  }

  function Scheduled(cmds: seq<Cache.Command>): (es: seq<Effect>)
    ensures |es| == |cmds|
    ensures forall i :: 0 <= i < |cmds| ==> es[i] == CacheCommand(cmds[i])
  {
    if |cmds| == 0 then [] else [CacheCommand(cmds[0])] + Scheduled(cmds[1..])
  }

  /** The miss path, given what the service answered. A failure is the
      classified answer with no effects. A success redirects to the found
      URL, writes `owner;url` to the cache first and publishes the event
      last; a later hit on the written value answers the same redirect with
      the same event whenever the owner has no ';'. */
  function MissFrom(cfg: Config, looked: Result<(string, Option<string>), Err>,
                    req: Request, shortId: string): (s: Step)
    ensures looked.Failure? ==> s == Step(Classify(cfg, looked.error), [])
    ensures looked.Success? ==>
              && s.outcome == Redirect(looked.value.0)
              && |s.effects| == 2
              && s.effects[0] == CacheCommand(Cache.SetCmd(shortId, EncodeValue(OwnerOf(looked.value.1), looked.value.0),
                                                           TtlSeconds(cfg)))
    ensures looked.Success? && (looked.value.1.Some? ==> ';' !in looked.value.1.value) ==>
              Hit(cfg, req, shortId, s.effects[0].cmd.value) == Step(s.outcome, s.effects[1..])
  {
    match looked
    case Failure(e) => Step(Classify(cfg, e), [])
    case Success((longUrl, stored)) =>
      var owner := OwnerOf(stored);
      assert ';' !in owner ==> DecodeValue(EncodeValue(owner, longUrl)) == Some((owner, longUrl)) by {
        if ';' !in owner { DecodeEncode(owner, longUrl); }
      }
      Step(Redirect(longUrl), [CacheEffect(cfg, shortId, owner, longUrl),
                               ProduceEffect(cfg, req, shortId, owner, longUrl)])
  }

  /** The miss path over the service as written, in terms of the table: a
      wrong-length id is 500, an unknown id 404, both without effects, and a
      stored id redirects to its long URL. */
  function Miss(cfg: Config, table: UrlRepository.UrlTable, dbFault: Option<Err>,
                req: Request, shortId: string): (s: Step)
    ensures !RetrieveService.LengthOk(cfg.idLength, shortId) ==>
              s.outcome.Fail? && s.outcome.status == InternalServerError && s.effects == []
    ensures RetrieveService.LengthOk(cfg.idLength, shortId) && dbFault.None? && shortId !in table ==>
              s.outcome.Fail? && s.outcome.status == NotFound && s.effects == []
    ensures RetrieveService.LengthOk(cfg.idLength, shortId) && dbFault.None? && shortId in table ==>
              s.outcome == Redirect(table[shortId].longUrl)
    ensures s.outcome.Redirect? ==> shortId in table && s.outcome == Redirect(table[shortId].longUrl)
  {
    assert Text(Message(RetrieveService.LengthNotInRange)) != Response.IDNotFound;
    assert Text(Message(RetrieveService.LengthNotInRange)) != Response.IDLengthNotInRange;
    MissFrom(cfg, RetrieveService.Retrieve(cfg.idLength, table, shortId, dbFault), req, shortId)
  }

  /** The hit path, taken when the cache read produced a non-empty value: a
      value without ';' panics; otherwise the answer redirects to the text
      after the first ';' and the event is attributed to the text before it. */
  function Hit(cfg: Config, req: Request, shortId: string, value: string): (s: Step)
    ensures ';' !in value ==> s == Step(Panic, [])
    ensures ';' in value ==>
              var owner := DecodeValue(value).value.0;
              && s.outcome.Redirect?
              && ';' !in owner
              && value == EncodeValue(owner, s.outcome.location)
              && s.effects == [ProduceEffect(cfg, req, shortId, owner, s.outcome.location)]
  {
    match DecodeValue(value)
    case None => Step(Panic, [])
    case Some((owner, longUrl)) =>
      Step(Redirect(longUrl), [ProduceEffect(cfg, req, shortId, owner, longUrl)])
  }

  /** `Retrieve`: one request for `shortId` at second `now`. A cache error
      (other than the miss) is only logged: the value stays "" and the store
      path runs. A key the server holds gets its TTL refresh scheduled
      first, and an empty cached value still falls through to the store.
      `looked` is what the service answers for the id; only the miss path
      uses it. */
  function ResolveFrom(cfg: Config, cache: Cache.Store, now: int, cacheFault: Option<Err>,
                       looked: Result<(string, Option<string>), Err>,
                       req: Request, shortId: string): (s: Step)
    ensures cacheFault.Some? || !Cache.Present(cache, shortId, now) ==> s == MissFrom(cfg, looked, req, shortId)
    ensures cacheFault.None? && Cache.Present(cache, shortId, now) ==>
              var d := Cache.Get(cache, shortId, now, None, "").dest;
              var rest := if d == "" then MissFrom(cfg, looked, req, shortId) else Hit(cfg, req, shortId, d);
              s == Step(rest.outcome, [CacheCommand(Cache.SetExpiryCmd(shortId, TtlSeconds(cfg)))] + rest.effects)
  {
    var lookup := Cache.GetByRefreshingExpiry(cache, shortId, now, cacheFault, "", TtlSeconds(cfg));
    var refresh := Scheduled(lookup.scheduled);
    var rest := if lookup.read.dest == "" then MissFrom(cfg, looked, req, shortId)
                else Hit(cfg, req, shortId, lookup.read.dest);
    assert Scheduled([]) == [];
    Step(rest.outcome, refresh + rest.effects)
  }

  /** `Retrieve` over the service as written: a cache error or a key the
      server does not hold takes the miss path; a non-empty cached value
      takes the hit path after the TTL refresh, whatever the table holds. */
  function Resolve(cfg: Config, cache: Cache.Store, now: int, cacheFault: Option<Err>,
                   table: UrlRepository.UrlTable, dbFault: Option<Err>,
                   req: Request, shortId: string): (s: Step)
    ensures cacheFault.Some? || !Cache.Present(cache, shortId, now) ==> s == Miss(cfg, table, dbFault, req, shortId)
    ensures cacheFault.None? && Cache.Get(cache, shortId, now, None, "").dest != "" ==>
              var hit := Hit(cfg, req, shortId, Cache.Get(cache, shortId, now, None, "").dest);
              s == Step(hit.outcome, [CacheCommand(Cache.SetExpiryCmd(shortId, TtlSeconds(cfg)))] + hit.effects)
  {
    ResolveFrom(cfg, cache, now, cacheFault, RetrieveService.Retrieve(cfg.idLength, table, shortId, dbFault), req, shortId)
  }

  /** `Retrieve` over the corrected service guard: a wrong-length id that
      misses the cache is 404 "id not found" with no effects. */
  function ResolveCorrected(cfg: Config, cache: Cache.Store, now: int, cacheFault: Option<Err>,
                            table: UrlRepository.UrlTable, dbFault: Option<Err>,
                            req: Request, shortId: string): (s: Step)
    ensures (cacheFault.Some? || !Cache.Present(cache, shortId, now)) && !RetrieveService.LengthOk(cfg.idLength, shortId) ==>
              && s.outcome.Fail? && s.outcome.status == NotFound
              && "message" in s.outcome.body && s.outcome.body["message"] == Response.IDNotFound
              && s.effects == []
    ensures RetrieveService.LengthOk(cfg.idLength, shortId) ==> s == Resolve(cfg, cache, now, cacheFault, table, dbFault, req, shortId)
  {
    ResolveFrom(cfg, cache, now, cacheFault, RetrieveService.RetrieveCorrected(cfg.idLength, table, shortId, dbFault), req, shortId)
  }

  /** Codec round trip: the value written by `cache` is split back into the
      same owner and URL, even when the URL itself contains ';'. */
  lemma {:induction false} DecodeEncode(owner: string, longUrl: string)
    requires ';' !in owner
    ensures DecodeValue(EncodeValue(owner, longUrl)) == Some((owner, longUrl))
  {
    var v := EncodeValue(owner, longUrl);
    var r := DecodeValue(v);
    assert r.Some?;
    var (o, u) := r.value;
    assert v == o + ";" + u;
    assert forall i :: 0 <= i < |o| ==> v[i] == o[i];
    assert forall i :: 0 <= i < |owner| ==> v[i] == owner[i];
    assert v[|o|] == ';' && v[|owner|] == ';';
    assert o == v[..|o|] == owner;
    assert u == v[|o| + 1..] == longUrl;
  }

  /** An owner containing ';' is split at its own ';': the round trip fails. */
  lemma OwnerWithSeparatorBreaksRoundTrip()
    ensures DecodeValue(EncodeValue("a;b", "u")) == Some(("a", "b;u"))
  {
    DecodeEncode("a", "b;u");
    assert EncodeValue("a;b", "u") == EncodeValue("a", "b;u");
  }

  /** A value without ';' cannot be split in two: the handler panics and
      answers nothing but the refresh already scheduled. */
  lemma HitWithoutSeparatorPanics(cfg: Config, req: Request, shortId: string, value: string)
    requires value != "" && ';' !in value
    ensures Hit(cfg, req, shortId, value) == Step(Panic, [])
  {
  }

  /** A cache error is treated exactly as a miss: the request resolves as if
      the cache held nothing for the id. */
  lemma {:induction false} CacheErrorActsAsMiss(cfg: Config, cache: Cache.Store, now: int, e: Err,
                                                table: UrlRepository.UrlTable, dbFault: Option<Err>,
                                                req: Request, shortId: string)
    ensures Resolve(cfg, cache, now, Some(e), table, dbFault, req, shortId)
         == Resolve(cfg, map[], now, None, table, dbFault, req, shortId)
    ensures Resolve(cfg, cache, now, Some(e), table, dbFault, req, shortId)
         == Miss(cfg, table, dbFault, req, shortId)
  {
    assert Scheduled([]) == [];
  }

  /** On a miss a store failure answers 404 for the two not-found texts and
      500 otherwise, with no cache write, no event and no redirect. */
  lemma {:induction false} MissFailure(cfg: Config, cache: Cache.Store, now: int, cacheFault: Option<Err>,
                                       table: UrlRepository.UrlTable, dbFault: Option<Err>,
                                       req: Request, shortId: string)
    requires !Cache.Present(cache, shortId, now) || cacheFault.Some?
    requires RetrieveService.Retrieve(cfg.idLength, table, shortId, dbFault).Failure?
    ensures var s := Resolve(cfg, cache, now, cacheFault, table, dbFault, req, shortId);
            var e := RetrieveService.Retrieve(cfg.idLength, table, shortId, dbFault).error;
            && s.effects == []
            && s.outcome.Fail?
            && (s.outcome.status == NotFound <==> Text(e) in {Response.IDNotFound, Response.IDLengthNotInRange})
            && (s.outcome.status != NotFound ==> s.outcome.status == InternalServerError)
  {
    assert Scheduled([]) == [];
  }

  /** On a successful miss the cache receives exactly `owner;url` under the
      short id for the configured TTL, one event follows, and the answer is
      a redirect to the stored URL. The owner is the stored one or "-1". */
  lemma {:induction false} MissSuccess(cfg: Config, cache: Cache.Store, now: int, cacheFault: Option<Err>,
                                       table: UrlRepository.UrlTable, req: Request, shortId: string)
    requires !Cache.Present(cache, shortId, now) || cacheFault.Some?
    requires RetrieveService.LengthOk(cfg.idLength, shortId) && shortId in table
    ensures var s := Resolve(cfg, cache, now, cacheFault, table, None, req, shortId);
            var rec := table[shortId];
            var owner := if rec.owner.Some? then rec.owner.value else Anonymous;
            && s.outcome == Redirect(rec.longUrl)
            && s.effects == [CacheCommand(Cache.SetCmd(shortId, owner + ";" + rec.longUrl, cfg.ttlMinutes * 60)),
                             Produce(Topic(cfg, owner), shortId, EventValue(req, shortId, owner, rec.longUrl))]
  {
    assert Scheduled([]) == [];
  }

  /** On a hit the value is split at its first ';', the TTL refresh and one
      event are the only effects, and neither the table nor the database is
      consulted: any other table or database state gives the same step. */
  lemma {:induction false} HitPath(cfg: Config, cache: Cache.Store, now: int,
                                   t1: UrlRepository.UrlTable, f1: Option<Err>,
                                   t2: UrlRepository.UrlTable, f2: Option<Err>,
                                   req: Request, shortId: string, owner: string, longUrl: string)
    requires Cache.Present(cache, shortId, now)
    requires Cache.Get(cache, shortId, now, None, "").dest == owner + ";" + longUrl
    requires ';' !in owner
    ensures var s := Resolve(cfg, cache, now, None, t1, f1, req, shortId);
            && s == Resolve(cfg, cache, now, None, t2, f2, req, shortId)
            && s.outcome == Redirect(longUrl)
            && s.effects == [CacheCommand(Cache.SetExpiryCmd(shortId, cfg.ttlMinutes * 60)),
                             Produce(Topic(cfg, owner), shortId, EventValue(req, shortId, owner, longUrl))]
  {
    DecodeEncode(owner, longUrl);
    var cmds := [Cache.SetExpiryCmd(shortId, TtlSeconds(cfg))];
    assert Scheduled(cmds) == [CacheCommand(cmds[0])];
  }

  /** A wrong-length id on a miss never reaches the table and, because the
      guard's text is neither not-found text, is answered with 500. */
  lemma {:induction false} WrongLengthIs500(cfg: Config, cache: Cache.Store, now: int, cacheFault: Option<Err>,
                                            table: UrlRepository.UrlTable, dbFault: Option<Err>,
                                            req: Request, shortId: string)
    requires !Cache.Present(cache, shortId, now) || cacheFault.Some?
    requires !RetrieveService.LengthOk(cfg.idLength, shortId)
    ensures Resolve(cfg, cache, now, cacheFault, table, dbFault, req, shortId)
         == Resolve(cfg, cache, now, cacheFault, map[], Some(NoRows), req, shortId)
    ensures Resolve(cfg, cache, now, cacheFault, table, dbFault, req, shortId).outcome.status == InternalServerError
  {
    assert Scheduled([]) == [];
    assert Text(Message(RetrieveService.LengthNotInRange)) != Response.IDNotFound;
    assert Text(Message(RetrieveService.LengthNotInRange)) != Response.IDLengthNotInRange;
  }

  /** With the guard's text corrected, a wrong-length id on a miss is
      answered 404 "id not found", still without reaching the table. */
  lemma {:induction false} CorrectedWrongLengthIs404(cfg: Config, cache: Cache.Store, now: int, cacheFault: Option<Err>,
                                                     table: UrlRepository.UrlTable, dbFault: Option<Err>,
                                                     req: Request, shortId: string)
    requires !Cache.Present(cache, shortId, now) || cacheFault.Some?
    requires !RetrieveService.LengthOk(cfg.idLength, shortId)
    ensures ResolveCorrected(cfg, cache, now, cacheFault, table, dbFault, req, shortId)
         == ResolveCorrected(cfg, cache, now, cacheFault, map[], Some(NoRows), req, shortId)
    ensures var s := ResolveCorrected(cfg, cache, now, cacheFault, table, dbFault, req, shortId);
            s.outcome.Fail? && s.outcome.status == NotFound && s.outcome.body["message"] == Response.IDNotFound
            && s.effects == []
  {
    assert Scheduled([]) == [];
  }

  /** A missing row reaches the handler as "id not found" and answers 404. */
  lemma {:induction false} UnknownIdIs404(cfg: Config, cache: Cache.Store, now: int,
                                          table: UrlRepository.UrlTable, req: Request, shortId: string)
    requires !Cache.Present(cache, shortId, now)
    requires RetrieveService.LengthOk(cfg.idLength, shortId) && shortId !in table
    ensures var s := Resolve(cfg, cache, now, None, table, None, req, shortId);
            s.outcome.Fail? && s.outcome.status == NotFound && s.effects == []
  {
    assert Scheduled([]) == [];
  }

  /** Cache-aside end to end: a miss, its cache write reaching the server at
      `ta`, then a request at `t2` while the entry lives. The second request
      redirects to the same URL, emits the same event to the same topic and
      does not depend on the table at all. */
  lemma {:induction false} MissThenHit(cfg: Config, cache: Cache.Store, t1: int, ta: int, t2: int,
                                       table: UrlRepository.UrlTable, other: UrlRepository.UrlTable,
                                       req: Request, shortId: string)
    requires !Cache.Present(cache, shortId, t1)
    requires RetrieveService.LengthOk(cfg.idLength, shortId) && shortId in table
    requires table[shortId].owner.Some? ==> ';' !in table[shortId].owner.value
    requires ta <= t2 && (cfg.ttlMinutes <= 0 || t2 < ta + cfg.ttlMinutes * 60)
    ensures var first := Resolve(cfg, cache, t1, None, table, None, req, shortId);
            var written := Cache.Run(cache, first.effects[0].cmd, ta, None).0;
            var second := Resolve(cfg, written, t2, None, other, None, req, shortId);
            && second.outcome == first.outcome
            && second.effects[1..] == first.effects[1..]
  {
    MissSuccess(cfg, cache, t1, None, table, req, shortId);
    var rec := table[shortId];
    var owner := OwnerOf(rec.owner);
    var value := EncodeValue(owner, rec.longUrl);
    var written := Cache.Set(cache, shortId, value, TtlSeconds(cfg), ta, None).0;
    Cache.SetThenGet(cache, shortId, value, TtlSeconds(cfg), ta, t2, "");
    assert ';' !in owner;
    HitPath(cfg, written, t2, other, None, other, None, req, shortId, owner, rec.longUrl);
  }

  /** The topic depends only on the owner, and the owner survives the cache,
      so a record is published to the same topic on a miss and on a later hit. */
  lemma SameTopicOnBothPaths(cfg: Config, owner: Option<string>, longUrl: string)
    requires owner.Some? ==> ';' !in owner.value
    ensures var o := OwnerOf(owner);
            DecodeValue(EncodeValue(o, longUrl)).Some?
            && Topic(cfg, DecodeValue(EncodeValue(o, longUrl)).value.0) == Topic(cfg, o)
  {
    DecodeEncode(OwnerOf(owner), longUrl);
  }

  /** The refresh a request schedules for a key the server holds has the
      same key and lifetime as the write the miss path makes for that id, so
      every hit restores the entry's original TTL. */
  lemma RefreshMatchesWrite(cfg: Config, cache: Cache.Store, now: int,
                            table: UrlRepository.UrlTable, dbFault: Option<Err>,
                            req: Request, shortId: string, longUrl: string, owner: Option<string>)
    requires Cache.Present(cache, shortId, now)
    ensures var s := Resolve(cfg, cache, now, None, table, dbFault, req, shortId);
            var w := MissFrom(cfg, Success((longUrl, owner)), req, shortId);
            && |s.effects| >= 1 && s.effects[0].CacheCommand? && s.effects[0].cmd.SetExpiryCmd?
            && w.effects[0].cmd.SetCmd?
            && s.effects[0].cmd.key == w.effects[0].cmd.key
            && s.effects[0].cmd.seconds == w.effects[0].cmd.seconds
  {
  }

  /** A redirect step whose effects end with the one event of the
      resolution, preceded only by cache commands. */
  predicate EndsWithEvent(cfg: Config, s: Step, shortId: string)
  {
    s.outcome.Redirect? ==>
      |s.effects| >= 1
      && (forall i :: 0 <= i < |s.effects| - 1 ==> s.effects[i].CacheCommand?)
      && var ev := s.effects[|s.effects| - 1];
         ev.Produce? && ev.key == shortId
         && "short_id" in ev.value && "long_url" in ev.value && "short_created_by" in ev.value
         && ev.value["short_id"] == shortId
         && ev.value["long_url"] == s.outcome.location
         && ev.topic == Topic(cfg, ev.value["short_created_by"])
  }

  lemma {:induction false} PathsEndWithEvent(cfg: Config, looked: Result<(string, Option<string>), Err>,
                                             req: Request, shortId: string, value: string)
    ensures EndsWithEvent(cfg, MissFrom(cfg, looked, req, shortId), shortId)
    ensures EndsWithEvent(cfg, Hit(cfg, req, shortId, value), shortId)
  {
  }

  /** Cache work in front of a step keeps its event last. */
  lemma {:induction false} CacheWorkFirst(cfg: Config, rest: Step, pre: seq<Effect>, shortId: string)
    requires forall i :: 0 <= i < |pre| ==> pre[i].CacheCommand?
    requires EndsWithEvent(cfg, rest, shortId)
    ensures EndsWithEvent(cfg, Step(rest.outcome, pre + rest.effects), shortId)
  {
    var effects := pre + rest.effects;
    if rest.outcome.Redirect? {
      assert effects[|effects| - 1] == rest.effects[|rest.effects| - 1];
      forall i | 0 <= i < |effects| - 1 ensures effects[i].CacheCommand? {
        if i >= |pre| {
          assert effects[i] == rest.effects[i - |pre|];
        }
      }
    }
  }

  /** Every successful resolution ends with exactly one event, carrying the
      short id, the owner and the URL redirected to; everything before it is
      cache work. */
  lemma {:induction false} OneEventPerRedirect(cfg: Config, cache: Cache.Store, now: int, cacheFault: Option<Err>,
                                               table: UrlRepository.UrlTable, dbFault: Option<Err>,
                                               req: Request, shortId: string)
    ensures EndsWithEvent(cfg, Resolve(cfg, cache, now, cacheFault, table, dbFault, req, shortId), shortId)
  {
    var looked := RetrieveService.Retrieve(cfg.idLength, table, shortId, dbFault);
    var lookup := Cache.GetByRefreshingExpiry(cache, shortId, now, cacheFault, "", TtlSeconds(cfg));
    var refresh := Scheduled(lookup.scheduled);
    var rest := if lookup.read.dest == "" then MissFrom(cfg, looked, req, shortId)
                else Hit(cfg, req, shortId, lookup.read.dest);
    PathsEndWithEvent(cfg, looked, req, shortId, lookup.read.dest);
    CacheWorkFirst(cfg, rest, refresh, shortId);
  }
}

=== FILE: retrieve_service.dfy ===
/** The retrieve service (internal/retrieve/service/retrieve.go): a length
    guard in front of the repository lookup. */
module RetrieveService {
  import opened Wrappers
  import opened Errors
  import opened UrlRepository
  import Strings
  import Response

  /** Text of the guard's error, as the service writes it. */
  const LengthNotInRange := "length not in range"

  /** The guard: Go's `len` counts UTF-8 bytes and must equal the configured
      length exactly; there is no range. */
  predicate LengthOk(idLength: int, id: string)
  {
    Strings.Utf8Len(id) == idLength
  }

  /** `GetLongUrlByShortId`: the long URL of the record, or the guard's
      error without any lookup, or the repository's error unchanged. */
  function GetLongUrlByShortId(idLength: int, table: UrlTable, id: string, fault: Option<Err>): (r: Result<string, Err>)
    ensures !LengthOk(idLength, id) ==> r == Failure(Message(LengthNotInRange))
    ensures LengthOk(idLength, id) && GetUrlByID(table, id, fault).Failure? ==>
              r == Failure(GetUrlByID(table, id, fault).error)
    ensures r.Success? <==> LengthOk(idLength, id) && fault.None? && id in table
    ensures r.Success? ==> r.value == table[id].longUrl
  {
    if !LengthOk(idLength, id) then Failure(Message(LengthNotInRange))
    else
      match GetUrlByID(table, id, fault)
      case Failure(e) => Failure(e)
      case Success(url) => Success(url.longUrl)
  }

  /** The call the retrieve handler makes, `Retrieve(c, shortID)`, which also
      returns the record's owner. It is not declared by the service's
      interface; it is modelled as the same guard and lookup. */
  function Retrieve(idLength: int, table: UrlTable, id: string, fault: Option<Err>): (r: Result<(string, Option<string>), Err>)
    ensures r.Success? ==> id in table && r.value == (table[id].longUrl, table[id].owner)
    ensures r.Failure? <==> GetLongUrlByShortId(idLength, table, id, fault).Failure?
    ensures r.Failure? ==> r.error == GetLongUrlByShortId(idLength, table, id, fault).error
  {
    if !LengthOk(idLength, id) then Failure(Message(LengthNotInRange))
    else
      match GetUrlByID(table, id, fault)
      case Failure(e) => Failure(e)
      case Success(url) => Success((url.longUrl, url.owner))
  }

  /** `Retrieve` as evidently intended: the guard reports the text the
      handler tests for, "id length not in range". Nothing else differs. */
  function RetrieveCorrected(idLength: int, table: UrlTable, id: string, fault: Option<Err>): (r: Result<(string, Option<string>), Err>)
    ensures !LengthOk(idLength, id) ==> r == Failure(Message(Response.IDLengthNotInRange))
    ensures LengthOk(idLength, id) ==> r == Retrieve(idLength, table, id, fault)
  {
    if !LengthOk(idLength, id) then Failure(Message(Response.IDLengthNotInRange))
    else Retrieve(idLength, table, id, fault)
  }

  /** A wrong-length id is rejected without consulting the table: the answer
      is the same whatever the table holds and whatever the database does. */
  lemma GuardPrecedesLookup(idLength: int, t1: UrlTable, t2: UrlTable, id: string,
                            f1: Option<Err>, f2: Option<Err>)
    requires !LengthOk(idLength, id)
    ensures Retrieve(idLength, t1, id, f1) == Retrieve(idLength, t2, id, f2)
    ensures GetLongUrlByShortId(idLength, t1, id, f1) == GetLongUrlByShortId(idLength, t2, id, f2)
  {
  }

  /** An id one byte too long (or too short) fails: the guard is exact equality. */
  lemma {:induction false} GuardIsExact(idLength: int, table: UrlTable, id: string, fault: Option<Err>)
    requires Strings.Utf8Len(id) == idLength + 1
    ensures GetLongUrlByShortId(idLength, table, id, fault) == Failure(Message(LengthNotInRange))
  {
  }

  /** Go's `len` is a byte count: a two-character id of three-byte
      characters passes a six-byte guard. */
  lemma MultibyteIdPassesByteGuard()
    ensures LengthOk(6, "一丁")
  {
    assert "一丁"[1..] == "丁";
    assert "丁"[1..] == "";
  }
}

=== FILE: strings.dfy ===
/** The parts of Go's `strings` package and of `len` on strings that the core relies on. */
module Strings {

  /** `p` occurs in `s` starting at index `i`. */
  predicate OccursAt(s: string, p: string, i: int)
  {
    0 <= i && i + |p| <= |s| && s[i..i + |p|] == p
  }

  /** Index of the first occurrence of `p` in `s`, or -1 (`strings.Index`). */
  function IndexOf(s: string, p: string): (k: int)
    ensures -1 <= k <= |s|
    ensures k >= 0 ==> OccursAt(s, p, k)
    ensures k >= 0 ==> forall j :: 0 <= j < k ==> !OccursAt(s, p, j)
    ensures k < 0 ==> forall j :: !OccursAt(s, p, j)
    decreases |s|
  {
    if |s| < |p| then -1
    else if s[..|p|] == p then 0
    else
      var k := IndexOf(s[1..], p);
      assert forall j :: OccursAt(s[1..], p, j) <==> OccursAt(s, p, j + 1) by {
        forall j ensures OccursAt(s[1..], p, j) <==> OccursAt(s, p, j + 1) {
          if 0 <= j && j + |p| <= |s| - 1 {
            assert s[1..][j..j + |p|] == s[j + 1..j + 1 + |p|];
          }
        }
      }
      assert !OccursAt(s, p, 0);
      assert forall j :: OccursAt(s, p, j) ==> j == 0 || OccursAt(s[1..], p, j - 1);
      if k < 0 then -1 else k + 1
  }

  predicate Contains(s: string, p: string)
  {
    IndexOf(s, p) >= 0
  }

  /** `strings.Replace(s, pat, "", 1)`: the first occurrence of `pat` is cut out. */
  function RemoveFirst(s: string, pat: string): (r: string)
    ensures !Contains(s, pat) ==> r == s
    ensures Contains(s, pat) ==> |r| == |s| - |pat|
    ensures Contains(s, pat) ==>
      exists k :: OccursAt(s, pat, k) && (forall j :: 0 <= j < k ==> !OccursAt(s, pat, j))
                  && r == s[..k] + s[k + |pat|..]
  {
    var k := IndexOf(s, pat);
    if k < 0 then s else s[..k] + s[k + |pat|..]
  }

  /** A leading occurrence is the first one, so it is the one removed. */
  lemma {:induction false} RemoveFirstOfPrefix(p: string, t: string)
    ensures RemoveFirst(p + t, p) == t
  {
    assert (p + t)[..|p|] == p;
    assert OccursAt(p + t, p, 0);
    assert IndexOf(p + t, p) == 0;
    assert (p + t)[|p|..] == t;
  }

  /** An occurrence preceded only by characters that cannot start `p` is
      the first one, so it is the one removed. */
  lemma {:induction false} RemoveFirstAfter(pre: string, p: string, t: string)
    requires |p| > 0
    requires forall j :: 0 <= j < |pre| ==> pre[j] != p[0]
    ensures RemoveFirst(pre + p + t, p) == pre + t
  {
    var s := pre + p + t;
    assert s[|pre|..|pre| + |p|] == p;
    assert OccursAt(s, p, |pre|);
    forall j | 0 <= j < |pre| ensures !OccursAt(s, p, j) {
      assert s[j..j + |p|][0] == s[j] == pre[j] != p[0];
    }
    assert IndexOf(s, p) == |pre|;
    assert s[..|pre|] == pre;
    assert s[|pre| + |p|..] == t;
  }

  /** `strings.SplitN(s, [sep], 2)`: one piece when `sep` is absent,
      otherwise the text before and after its first occurrence. */
  function SplitFirst(s: string, sep: char): (parts: seq<string>)
    ensures 1 <= |parts| <= 2
    ensures |parts| == 1 <==> sep !in s
    ensures |parts| == 1 ==> parts[0] == s
    ensures |parts| == 2 ==> sep !in parts[0] && s == parts[0] + [sep] + parts[1]
  {
    var k := IndexOf(s, [sep]);
    if k < 0 then
      assert forall i :: 0 <= i < |s| ==> s[i] != sep by {
        forall i | 0 <= i < |s| ensures s[i] != sep {
          assert !OccursAt(s, [sep], i);
          assert s[i..i + 1] == [s[i]];
        }
      }
      [s]
    else
      assert OccursAt(s, [sep], k);
      assert s[k..k + 1] == [s[k]];
      assert forall i :: 0 <= i < k ==> s[i] != sep by {
        forall i | 0 <= i < k ensures s[i] != sep {
          assert !OccursAt(s, [sep], i);
          assert s[i..i + 1] == [s[i]];
        }
      }
      assert s == s[..k] + [sep] + s[k + 1..];
      [s[..k], s[k + 1..]]
  }

  /** Number of bytes of the UTF-8 encoding of `c`. */
  function Utf8Width(c: char): nat
  {
    if c < 0x80 as char then 1
    else if c < 0x800 as char then 2
    else if c < 0x1_0000 as char then 3
    else 4
  }

  /** `len(s)` in Go: the UTF-8 byte length, not the number of characters. */
  function Utf8Len(s: string): (n: nat)
    ensures n >= |s|
    ensures n <= 4 * |s|
  {
    if |s| == 0 then 0 else Utf8Width(s[0]) + Utf8Len(s[1..])
  }

  predicate IsAscii(s: string)
  {
    forall i :: 0 <= i < |s| ==> s[i] < 0x80 as char
  }

  /** On ASCII text byte length and character count agree. */
  lemma {:induction false} AsciiLength(s: string)
    requires IsAscii(s)
    ensures Utf8Len(s) == |s|
  {
    if |s| > 0 {
      assert IsAscii(s[1..]) by {
        forall i | 0 <= i < |s[1..]| ensures s[1..][i] < 0x80 as char {
          assert s[1..][i] == s[i + 1];
        }
      }
      AsciiLength(s[1..]);
    }
  }
}

=== FILE: url_repository.dfy ===
/** The `urls` table and its single read (internal/retrieve/repository/retrieve.go)
    and the insert used by link creation (internal/create/repository/create.go). */
module UrlRepository {
  import opened Wrappers
  import opened Errors

  /** A row of `urls`; `owner` is the nullable `user_id` column. */
  datatype UrlRecord = UrlRecord(
    shortId: string,
    longUrl: string,
    owner: Option<string>,
    createdAt: int,
    expiresAt: int)

  /** The table keyed by its `short_id` column. */
  type UrlTable = map<string, UrlRecord>

  predicate WellKeyed(table: UrlTable)
  {
    forall k :: k in table ==> table[k].shortId == k
  }

  /** Text of the error that replaces pgx's no-rows error. */
  const IdNotFound := "id not found"

  /** `GetUrlByID`: one SELECT by `short_id`. A fault is the error the query
      or the scan reports instead of a row; the no-rows error, whatever its
      origin, becomes "id not found" and every other error passes unchanged.
      The row's `expires_at` is read but not compared with the clock. */
  function GetUrlByID(table: UrlTable, id: string, fault: Option<Err>): (r: Result<UrlRecord, Err>)
    ensures r.Success? <==> fault.None? && id in table
    ensures r.Success? ==> r.value == table[id]
    ensures fault.None? && id !in table ==> r == Failure(Message(IdNotFound))
    ensures fault == Some(NoRows) ==> r == Failure(Message(IdNotFound))
    ensures fault.Some? && fault != Some(NoRows) ==> r == Failure(fault.value)
  {
    var scanned := if fault.Some? then Failure(fault.value)
                   else if id in table then Success(table[id])
                   else Failure(NoRows);
    match scanned
    case Success(row) => Success(row)
    case Failure(e) => if e == NoRows then Failure(Message(IdNotFound)) else Failure(e)
  }

  /** `Create` of internal/create/repository/create.go: INSERT of all five
      columns. `short_id` is the primary key, so a taken id is a unique violation. */
  function Insert(table: UrlTable, rec: UrlRecord, fault: Option<Err>): (r: (UrlTable, Option<Err>))
    ensures r.1.None? <==> fault.None? && rec.shortId !in table
    ensures r.1.None? ==> r.0 == table[rec.shortId := rec]
    ensures r.1.Some? ==> r.0 == table
    ensures fault.None? && rec.shortId in table ==> r.1.value.PgError? && r.1.value.code == UniqueViolation
    ensures WellKeyed(table) ==> WellKeyed(r.0)
  {
    if fault.Some? then (table, fault)
    else if rec.shortId in table then (table, Some(PgError(UniqueViolation, "duplicate key value violates unique constraint \"urls_pkey\"")))
    else (table[rec.shortId := rec], None)
  }

  /** A row that was inserted is what a later lookup of its id returns. */
  lemma InsertThenGet(table: UrlTable, rec: UrlRecord)
    requires rec.shortId !in table
    ensures GetUrlByID(Insert(table, rec, None).0, rec.shortId, None) == Success(rec)
  {
  }
}

=== FILE: user_repository.dfy ===
/** The `users` table and its four statements (internal/auth/repository/user.go).
    The table is the sequence of its rows; `id` is the primary key and
    `email` carries a unique constraint, so either kind of duplicate makes an
    INSERT or UPDATE fail with SQLSTATE 23505. */
module UserRepository {
  import opened Wrappers
  import opened Errors

  /** A row of `users`; `password` holds the bcrypt hash. */
  datatype User = User(id: string, email: string, password: string, createdAt: int)

  type UserTable = seq<User>

  /** What the table's keys guarantee. */
  predicate Unique(table: UserTable)
  {
    forall i, j :: 0 <= i < j < |table| ==> table[i].id != table[j].id && table[i].email != table[j].email
  }

  datatype Column = IdColumn | EmailColumn

  function ColumnOf(u: User, col: Column): string
  {
    match col
    case IdColumn => u.id
    case EmailColumn => u.email
  }

  /** Index of the first row whose column `col` equals `v`, or -1. */
  function Find(table: UserTable, col: Column, v: string): (k: int)
    ensures -1 <= k < |table|
    ensures k >= 0 ==> ColumnOf(table[k], col) == v
    ensures k >= 0 ==> forall i :: 0 <= i < k ==> ColumnOf(table[i], col) != v
    ensures k < 0 ==> forall i :: 0 <= i < |table| ==> ColumnOf(table[i], col) != v
    decreases |table|
  {
    if |table| == 0 then -1
    else if ColumnOf(table[0], col) == v then 0
    else
      var k := Find(table[1..], col, v);
      assert forall i :: 1 <= i < |table| ==> table[1..][i - 1] == table[i];
      if k < 0 then -1 else k + 1
  }

  /** A single-row SELECT on column `col`: the first matching row, pgx's
      no-rows error, or the connection fault unchanged. */
  function Select(table: UserTable, col: Column, v: string, fault: Option<Err>): (r: Result<User, Err>)
    ensures fault.Some? ==> r == Failure(fault.value)
    ensures fault.None? && r.Success? ==> r.value in table && ColumnOf(r.value, col) == v
    ensures fault.None? && r.Failure? ==> r.error == NoRows && forall u :: u in table ==> ColumnOf(u, col) != v
  {
    if fault.Some? then Failure(fault.value)
    else
      var k := Find(table, col, v);
      if k < 0 then Failure(NoRows) else Success(table[k])
  }

  /** `GetUserByID`: the four columns of the row with that id. */
  function GetUserByID(table: UserTable, id: string, fault: Option<Err>): (r: Result<User, Err>)
    ensures fault.Some? ==> r == Failure(fault.value)
    ensures fault.None? ==> (r.Success? <==> exists u :: u in table && u.id == id)
    ensures r.Success? ==> r.value in table && r.value.id == id
    ensures fault.None? && r.Failure? ==> r.error == NoRows
  {
    Select(table, IdColumn, id, fault)
  }

  /** `GetUserByEmail`: the four columns of the row with that email. */
  function GetUserByEmail(table: UserTable, email: string, fault: Option<Err>): (r: Result<User, Err>)
    ensures fault.Some? ==> r == Failure(fault.value)
    ensures fault.None? ==> (r.Success? <==> exists u :: u in table && u.email == email)
    ensures r.Success? ==> r.value in table && r.value.email == email
    ensures fault.None? && r.Failure? ==> r.error == NoRows
  {
    Select(table, EmailColumn, email, fault)
  }

  const DuplicateKey := "duplicate key value violates unique constraint"

  /** `Create`: INSERT of (id, created_at, email, password). */
  function Create(table: UserTable, user: User, fault: Option<Err>): (r: (UserTable, Option<Err>))
    ensures fault.Some? ==> r == (table, fault)
    ensures fault.None? && (exists u :: u in table && (u.id == user.id || u.email == user.email)) ==>
              r == (table, Some(PgError(UniqueViolation, DuplicateKey)))
    ensures r.1.None? <==> fault.None? && forall u :: u in table ==> u.id != user.id && u.email != user.email
    ensures r.1.None? ==> r.0 == table + [user]
  {
    if fault.Some? then (table, fault)
    else if exists u :: u in table && (u.id == user.id || u.email == user.email) then
      (table, Some(PgError(UniqueViolation, DuplicateKey)))
    else (table + [user], None)
  }

  /** The row after `UPDATE users SET email=$1, password=$2 WHERE id=$3`. */
  function Updated(row: User, user: User): User
  {
    if row.id == user.id then row.(email := user.email, password := user.password) else row
  }

  /** `Update`: rewrites email and password of the row whose id matches;
      a missing id updates nothing and is no error. The unique constraint
      fails the statement only when a row is rewritten to an email another
      row already has. */
  function Update(table: UserTable, user: User, fault: Option<Err>): (r: (UserTable, Option<Err>))
    ensures fault.Some? ==> r == (table, fault)
    ensures fault.None? ==>
              (r.1.None? <==> !((exists v :: v in table && v.id == user.id)
                                && exists u :: u in table && u.id != user.id && u.email == user.email))
    ensures fault.None? && r.1.Some? ==> r.1.value == PgError(UniqueViolation, DuplicateKey)
    ensures (forall v :: v in table ==> v.id != user.id) ==> r.0 == table
    ensures r.1.Some? ==> r.0 == table
    ensures r.1.None? ==> |r.0| == |table|
    ensures r.1.None? ==> forall i :: 0 <= i < |table| ==>
              r.0[i].id == table[i].id && r.0[i].createdAt == table[i].createdAt
    ensures r.1.None? ==> forall i :: 0 <= i < |table| && table[i].id == user.id ==>
              r.0[i].email == user.email && r.0[i].password == user.password
    ensures r.1.None? ==> forall i :: 0 <= i < |table| && table[i].id != user.id ==> r.0[i] == table[i]
  {
    if fault.Some? then (table, fault)
    else if (exists v :: v in table && v.id == user.id)
            && exists u :: u in table && u.id != user.id && u.email == user.email then
      (table, Some(PgError(UniqueViolation, DuplicateKey)))
    else (seq(|table|, i requires 0 <= i < |table| => Updated(table[i], user)), None)
  }

  /** Inserting keeps the keys unique. */
  lemma {:induction false} CreateKeepsUnique(table: UserTable, user: User, fault: Option<Err>)
    requires Unique(table)
    ensures Unique(Create(table, user, fault).0)
  {
    var r := Create(table, user, fault);
    if r.1.None? {
      var t := r.0;
      forall i, j | 0 <= i < j < |t|
        ensures t[i].id != t[j].id && t[i].email != t[j].email
      {
        if j == |table| {
          assert t[i] in table && t[j] == user;
        } else {
          assert t[i] == table[i] && t[j] == table[j];
        }
      }
    }
  }

  /** Updating keeps the keys unique. */
  lemma {:induction false} UpdateKeepsUnique(table: UserTable, user: User, fault: Option<Err>)
    requires Unique(table)
    ensures Unique(Update(table, user, fault).0)
  {
    var r := Update(table, user, fault);
    if r.1.None? {
      var t := r.0;
      forall i, j | 0 <= i < j < |t|
        ensures t[i].id != t[j].id && t[i].email != t[j].email
      {
        assert t[i].id == table[i].id && t[j].id == table[j].id;
        if table[i].id == user.id {
          assert table[i] in table && table[j] in table;
        } else if table[j].id == user.id {
          assert table[i] in table && table[j] in table;
        }
      }
    }
  }

  /** A user just created is found by its id and by its email. */
  lemma {:induction false} CreateThenGet(table: UserTable, user: User)
    requires Create(table, user, None).1.None?
    ensures GetUserByID(Create(table, user, None).0, user.id, None) == Success(user)
    ensures GetUserByEmail(Create(table, user, None).0, user.email, None) == Success(user)
  {
    var t := table + [user];
    assert t[|table|] == user;
    var k := Find(t, IdColumn, user.id);
    assert k >= 0 && k == |table| by {
      assert forall i :: 0 <= i < |table| ==> t[i] == table[i] && t[i] in table;
    }
    var k2 := Find(t, EmailColumn, user.email);
    assert k2 >= 0 && k2 == |table| by {
      assert forall i :: 0 <= i < |table| ==> t[i] == table[i] && t[i] in table;
    }
  }
}

=== FILE: user_service.dfy ===
/** The account service (internal/auth/service/user.go): login, registration,
    token refresh, password change and lookup over the `users` table.
    bcrypt is uninterpreted (`Crypto`); the outcome of request validation,
    the fresh uuid and the clock are inputs. */
module UserService {
  import opened Wrappers
  import opened Errors
  import opened UserRepository
  import Jwt
  import Middleware

  datatype LoginReq = LoginReq(email: string, password: string)
  datatype RegisterReq = RegisterReq(email: string, password: string)
  datatype ChangePasswordReq = ChangePasswordReq(password: string, newPassword: string)

  /** `utils.HashAndSalt` (salt included) and `bcrypt.CompareHashAndPassword`
      succeeding, as functions of their arguments. */
  datatype Crypto = Crypto(hashAndSalt: string -> string, matches: (string, string) -> bool)

  /** The token signer and the `AuthSecret` setting. */
  datatype TokenKeys = TokenKeys(lib: Jwt.Signer, secret: string)

  const WrongPassword := "wrong password"

  datatype LoginResult = LoginResult(user: Option<User>, accessToken: string, refreshToken: string, err: Option<Err>)

  datatype TokenPair = TokenPair(accessToken: string, refreshToken: string, err: Option<Err>)

  /** The map both tokens are generated from: the user's id and email. */
  function TokenData(u: User): (p: Jwt.Payload)
    ensures p.Keys == {"id", "email"}
    ensures p["id"] == Jwt.JStr(u.id) && p["email"] == Jwt.JStr(u.email)
  {
    map["id" := Jwt.JStr(u.id), "email" := Jwt.JStr(u.email)]
  }

  /** Access then refresh token from one shared map, as the service does. */
  function IssuePair(keys: TokenKeys, u: User, now: int): (r: (string, string))
    ensures r.0 == Jwt.GenerateAccessToken(keys.lib, keys.secret, TokenData(u), now).token
    ensures r.1 == Jwt.GenerateRefreshToken(keys.lib, keys.secret, TokenData(u), now).token
  {
    var access := Jwt.GenerateAccessToken(keys.lib, keys.secret, TokenData(u), now);
    var refresh := Jwt.GenerateRefreshToken(keys.lib, keys.secret, access.payload, now);
    assert access.payload["type" := Jwt.JStr(Jwt.RefreshTokenType)]
        == TokenData(u)["type" := Jwt.JStr(Jwt.RefreshTokenType)];
    (access.token, refresh.token)
  }

  /** `Login`. `invalid` is the validator's verdict on the request. */
  function Login(table: UserTable, req: LoginReq, invalid: Option<Err>, fault: Option<Err>,
                 crypto: Crypto, keys: TokenKeys, now: int): (r: LoginResult)
    ensures invalid.Some? ==> r == LoginResult(None, "", "", invalid)
    ensures r.err.Some? ==> r.user.None? && r.accessToken == "" && r.refreshToken == ""
    ensures invalid.None? && GetUserByEmail(table, req.email, fault).Failure? ==>
              r.err == Some(GetUserByEmail(table, req.email, fault).error)
    ensures invalid.None? && GetUserByEmail(table, req.email, fault).Success?
            && !crypto.matches(GetUserByEmail(table, req.email, fault).value.password, req.password) ==>
              r.err == Some(Message(WrongPassword))
    ensures r.err.None? ==> r.user.Some? && r.user.value in table && r.user.value.email == req.email
    ensures r.err.None? ==> crypto.matches(r.user.value.password, req.password)
    ensures r.err.None? ==> (r.accessToken, r.refreshToken) == IssuePair(keys, r.user.value, now)
    ensures invalid.None? && GetUserByEmail(table, req.email, fault).Success?
            && crypto.matches(GetUserByEmail(table, req.email, fault).value.password, req.password) ==>
              r.err.None? && r.user == Some(GetUserByEmail(table, req.email, fault).value)
  {
    if invalid.Some? then LoginResult(None, "", "", invalid)
    else
      match GetUserByEmail(table, req.email, fault)
      case Failure(e) => LoginResult(None, "", "", Some(e))
      case Success(u) =>
        if !crypto.matches(u.password, req.password) then LoginResult(None, "", "", Some(Message(WrongPassword)))
        else
          var (access, refresh) := IssuePair(keys, u, now);
          LoginResult(Some(u), access, refresh, None)
  }

  /** `Register`: the row gets the fresh id, the clock's time, the request's
      email and the hash of the request's password; an INSERT error is
      returned with no user. */
  function Register(table: UserTable, req: RegisterReq, invalid: Option<Err>, fault: Option<Err>,
                    crypto: Crypto, newId: string, now: int): (r: (UserTable, Result<User, Err>))
    ensures invalid.Some? ==> r == (table, Failure(invalid.value))
    ensures r.1.Failure? ==> r.0 == table
    ensures r.1.Success? ==> r.1.value == User(newId, req.email, crypto.hashAndSalt(req.password), now)
    ensures r.1.Success? ==> r.0 == table + [r.1.value]
    ensures invalid.None? && fault.Some? ==> r == (table, Failure(fault.value))
    ensures invalid.None? && fault.None? && (exists u :: u in table && (u.id == newId || u.email == req.email)) ==>
              r.1 == Failure(PgError(UniqueViolation, DuplicateKey))
    ensures invalid.None? && fault.None? && (forall u :: u in table ==> u.id != newId && u.email != req.email) ==>
              r.1.Success?
  {
    if invalid.Some? then (table, Failure(invalid.value))
    else
      var user := User(newId, req.email, crypto.hashAndSalt(req.password), now);
      var (table', err) := Create(table, user, fault);
      if err.Some? then (table', Failure(err.value)) else (table', Success(user))
  }

  /** `GetUserByID`: the repository's answer, error included, unchanged. */
  function GetUser(table: UserTable, id: string, fault: Option<Err>): (r: Result<User, Err>)
    ensures r == UserRepository.GetUserByID(table, id, fault)
  {
    match UserRepository.GetUserByID(table, id, fault)
    case Failure(e) => Failure(e)
    case Success(u) => Success(u)
  }

  /** `RefreshToken(userID)`: a new access token and a new refresh token for
      the user looked up by id; a lookup error gives two empty strings. */
  function RefreshToken(table: UserTable, userId: string, fault: Option<Err>,
                        keys: TokenKeys, now: int): (r: TokenPair)
    ensures UserRepository.GetUserByID(table, userId, fault).Failure? ==>
              r == TokenPair("", "", Some(UserRepository.GetUserByID(table, userId, fault).error))
    ensures UserRepository.GetUserByID(table, userId, fault).Success? ==>
              r.err.None? && (r.accessToken, r.refreshToken)
                             == IssuePair(keys, UserRepository.GetUserByID(table, userId, fault).value, now)
  {
    match UserRepository.GetUserByID(table, userId, fault)
    case Failure(e) => TokenPair("", "", Some(e))
    case Success(u) =>
      var (access, refresh) := IssuePair(keys, u, now);
      TokenPair(access, refresh, None)
  }

  /** `ChangePassword`: the current password must match the stored hash; the
      fetched row is then written back with only its password replaced by the
      hash of the new one. `readFault` and `writeFault` are the SELECT's and
      the UPDATE's connection faults. */
  function ChangePassword(table: UserTable, id: string, req: ChangePasswordReq, invalid: Option<Err>,
                          readFault: Option<Err>, writeFault: Option<Err>, crypto: Crypto): (r: (UserTable, Option<Err>))
    ensures invalid.Some? ==> r == (table, invalid)
    ensures invalid.None? && UserRepository.GetUserByID(table, id, readFault).Failure? ==>
              r == (table, Some(UserRepository.GetUserByID(table, id, readFault).error))
    ensures invalid.None? && UserRepository.GetUserByID(table, id, readFault).Success?
            && !crypto.matches(UserRepository.GetUserByID(table, id, readFault).value.password, req.password) ==>
              r == (table, Some(Message(WrongPassword)))
    ensures r.1.Some? ==> r.0 == table
    ensures r.1.None? ==>
              var u := UserRepository.GetUserByID(table, id, readFault).value;
              invalid.None? && crypto.matches(u.password, req.password)
              && r.0 == Update(table, u.(password := crypto.hashAndSalt(req.newPassword)), writeFault).0
    ensures invalid.None? && UserRepository.GetUserByID(table, id, readFault).Success?
            && crypto.matches(UserRepository.GetUserByID(table, id, readFault).value.password, req.password) ==>
              var u := UserRepository.GetUserByID(table, id, readFault).value;
              r.1 == Update(table, u.(password := crypto.hashAndSalt(req.newPassword)), writeFault).1
    ensures r.1.None? <==>
              && invalid.None?
              && UserRepository.GetUserByID(table, id, readFault).Success?
              && var u := UserRepository.GetUserByID(table, id, readFault).value;
                 && crypto.matches(u.password, req.password)
                 && Update(table, u.(password := crypto.hashAndSalt(req.newPassword)), writeFault).1.None?
  {
    if invalid.Some? then (table, invalid)
    else
      match UserRepository.GetUserByID(table, id, readFault)
      case Failure(e) => (table, Some(e))
      case Success(u) =>
        if !crypto.matches(u.password, req.password) then (table, Some(Message(WrongPassword)))
        else Update(table, u.(password := crypto.hashAndSalt(req.newPassword)), writeFault)
  }

  /** A request the validator rejects never reaches the table: the answer is
      the same for every table and every database fault. */
  lemma LoginValidatesFirst(t1: UserTable, t2: UserTable, req: LoginReq, e: Err,
                            f1: Option<Err>, f2: Option<Err>, crypto: Crypto, keys: TokenKeys, now: int)
    ensures Login(t1, req, Some(e), f1, crypto, keys, now) == Login(t2, req, Some(e), f2, crypto, keys, now)
  {
  }

  /** A successful login's access token validates to the user's id and
      email tagged "x-access", passes the access gate with the user's id and
      fails the refresh gate, until five hours after login. */
  lemma {:induction false} LoginTokenIsAccessScoped(table: UserTable, req: LoginReq, crypto: Crypto,
                                                    keys: TokenKeys, now: nat, t: int)
    requires Login(table, req, None, None, crypto, keys, now).err.None?
    requires var u := Login(table, req, None, None, crypto, keys, now).user.value;
             Jwt.SoundFor(keys.lib, keys.secret,
                          Jwt.TokenClaims(TokenData(u), Jwt.AccessTokenType, Jwt.AccessTokenExpiredTime, now))
    requires Login(table, req, None, None, crypto, keys, now).accessToken != ""
    requires t <= now + 18000
    ensures var r := Login(table, req, None, None, crypto, keys, now);
            Jwt.ValidateToken(keys.lib, keys.secret, r.accessToken, t)
              == Success(Some(map["id" := Jwt.JStr(r.user.value.id), "email" := Jwt.JStr(r.user.value.email),
                                  "type" := Jwt.JStr("x-access")]))
    ensures var r := Login(table, req, None, None, crypto, keys, now);
            && Middleware.JWTAuth(keys.lib, keys.secret, t, r.accessToken)
                 == Middleware.Passed(map["userId" := Jwt.JStr(r.user.value.id)])
            && !Middleware.JWTRefresh(keys.lib, keys.secret, t, r.accessToken).Passed?
  {
    var r := Login(table, req, None, None, crypto, keys, now);
    var u := r.user.value;
    Jwt.AccessTokenLifetime(keys.lib, keys.secret, TokenData(u), now, t);
    Middleware.AccessTokenAtGates(keys.lib, keys.secret, TokenData(u), now, t);
    assert TokenData(u)["type" := Jwt.JStr(Jwt.AccessTokenType)]
        == map["id" := Jwt.JStr(u.id), "email" := Jwt.JStr(u.email), "type" := Jwt.JStr("x-access")];
  }

  /** A refreshed access token belongs to the user the gate identified: it
      validates to that user's id and email tagged "x-access", and passes the
      access gate with the same id, until five hours after the refresh. */
  lemma {:induction false} RefreshedTokenIsAccessScoped(table: UserTable, userId: string, keys: TokenKeys,
                                                        now: nat, t: int)
    requires UserRepository.GetUserByID(table, userId, None).Success?
    requires var u := UserRepository.GetUserByID(table, userId, None).value;
             Jwt.SoundFor(keys.lib, keys.secret,
                          Jwt.TokenClaims(TokenData(u), Jwt.AccessTokenType, Jwt.AccessTokenExpiredTime, now))
    requires RefreshToken(table, userId, None, keys, now).accessToken != ""
    requires t <= now + 18000
    ensures var r := RefreshToken(table, userId, None, keys, now);
            var u := UserRepository.GetUserByID(table, userId, None).value;
            && r.err.None?
            && Jwt.ValidateToken(keys.lib, keys.secret, r.accessToken, t)
                 == Success(Some(map["id" := Jwt.JStr(userId), "email" := Jwt.JStr(u.email),
                                     "type" := Jwt.JStr("x-access")]))
            && Middleware.JWTAuth(keys.lib, keys.secret, t, r.accessToken)
                 == Middleware.Passed(map["userId" := Jwt.JStr(userId)])
  {
    var u := UserRepository.GetUserByID(table, userId, None).value;
    Jwt.AccessTokenLifetime(keys.lib, keys.secret, TokenData(u), now, t);
    Middleware.AccessTokenAtGates(keys.lib, keys.secret, TokenData(u), now, t);
    assert TokenData(u)["type" := Jwt.JStr(Jwt.AccessTokenType)]
        == map["id" := Jwt.JStr(userId), "email" := Jwt.JStr(u.email), "type" := Jwt.JStr("x-access")];
  }

  /** Registering with an email and a fresh id nobody has, then logging in
      with the same password, succeeds for the new user, provided bcrypt
      accepts the password against its own hash. */
  lemma {:induction false} RegisterThenLogin(table: UserTable, email: string, password: string,
                                             crypto: Crypto, keys: TokenKeys, newId: string, t0: int, t1: int)
    requires Unique(table)
    requires forall u :: u in table ==> u.id != newId && u.email != email
    requires crypto.matches(crypto.hashAndSalt(password), password)
    ensures var table' := Register(table, RegisterReq(email, password), None, None, crypto, newId, t0).0;
            var r := Login(table', LoginReq(email, password), None, None, crypto, keys, t1);
            r.err.None? && r.user == Some(User(newId, email, crypto.hashAndSalt(password), t0))
  {
    var user := User(newId, email, crypto.hashAndSalt(password), t0);
    CreateThenGet(table, user);
  }

  /** A successful password change leaves the user's row with the new hash
      and its id, email and creation time unchanged, and every other row as
      it was. Nothing requires the new password to differ from the old. */
  lemma {:induction false} ChangePasswordEffect(table: UserTable, id: string, req: ChangePasswordReq,
                                                crypto: Crypto)
    requires Unique(table)
    requires ChangePassword(table, id, req, None, None, None, crypto).1.None?
    ensures var t := ChangePassword(table, id, req, None, None, None, crypto).0;
            && |t| == |table|
            && (forall i :: 0 <= i < |table| && table[i].id == id ==>
                  t[i] == table[i].(password := crypto.hashAndSalt(req.newPassword)))
            && (forall i :: 0 <= i < |table| && table[i].id != id ==> t[i] == table[i])
  {
    var u := UserRepository.GetUserByID(table, id, None).value;
    var k :| 0 <= k < |table| && table[k] == u;
    forall i | 0 <= i < |table| && table[i].id == id
      ensures table[i] == u
    {
      if i != k {
        assert false;
      }
    }
  }

  /** The same password as old and new is accepted: there is no check. */
  lemma SamePasswordAccepted(table: UserTable, id: string, pw: string, crypto: Crypto)
    requires Unique(table)
    requires UserRepository.GetUserByID(table, id, None).Success?
    requires crypto.matches(UserRepository.GetUserByID(table, id, None).value.password, pw)
    ensures ChangePassword(table, id, ChangePasswordReq(pw, pw), None, None, None, crypto).1.None?
  {
    var u := UserRepository.GetUserByID(table, id, None).value;
    forall v | v in table && v.email == u.email ensures v.id == u.id {
      var i :| 0 <= i < |table| && table[i] == v;
      var j :| 0 <= j < |table| && table[j] == u;
      if i < j { assert false; } else if j < i { assert false; }
    }
  }
}

=== FILE: wrappers.dfy ===
/** Failure-compatible wrappers shared by every module of the model. */
module Wrappers {

  /** A value that may be absent: Go's nil pointer or missing map entry. */
  datatype Option<+T> = None | Some(value: T)

  /** A value or the error that replaced it: Go's `(value, error)` return pair,
      where the value half is the zero value whenever the error is non-nil. */
  datatype Result<+R, +E> = Success(value: R) | Failure(error: E)
}
